=== FILE: README.md ===
# IBAN validator core in Dafny

This project models the validation engine of the IBAN validator in
`iban_validator/validate.cpp` and proves properties of the model. The engine has four parts.

- **The ISO/IEC 7064 MOD 97-10 checksum** (`iso7064Mod97_10`).
  - It moves the country code and check digits to the end of the IBAN.
  - It replaces each upper-case letter with its number (A = 10 … Z = 35).
  - It reduces the resulting decimal number modulo 97 in windows: nine digits first, then the carried two-digit remainder followed by seven more digits.
  - It accepts when the final remainder is 1.
- **The BBAN structure compiler** (`parseStructure`).
  - It reads a structure such as `U04F06F08` as 3-character blocks: a selector letter and a two-digit length.
  - It compiles the blocks into an anchored pattern.
- **The registry** (`Validate::addSpecification` and the table the `Validate` constructor loads).
  - It maps a country code to its specification: length, structure and example.
- **The validator** (`Validate::isValid`).
  - It upper-cases the input and looks up its first two characters.
  - It accepts when the length, the country code, the BBAN structure and the checksum all agree with the specification.

Modules:

- `Wrappers` (wrappers.dfy): `Result` and the two exceptions the model distinguishes, `std::out_of_range` and `std::invalid_argument`.
- `Decimal` (decimal.dfy): digit strings, their values, and `std::to_string`.
- `Modular` (modular.dfy): three facts about remainders modulo 97.
- `Checksum` (checksum.dfy): the rotation, the letter expansion and the windowed loop. It also proves that the windowed loop decides whether the whole number string is 1 modulo 97.
- `Structure` (structure.dfy): parsing a structure into a block list.
  - The pattern is modelled by the strings it accepts (`Matches`), with a position-by-position reading (`MatchesAt`) proved equivalent.
  - `Render` is an inverse of parsing.
- `Registry` (registry.dfy): the registry as an immutable `map<string, Spec>`.
  - `addSpecification` is a map update, and the constructor's 84 calls are a fold over the table.
  - Every entry of the table is proved well formed: its length is four plus the block lengths, its structure is made of whole blocks, and it uses only the selectors A, F and U.
- `Validator` (validator.dfy): `isValid` as one call on a fresh `Validate`.
  - `IsValidAsWritten` follows the source, exceptions included.
  - `IsValid` is the corrected function.
  - `Accepted` states the four checks without the loop or the pattern.
- `Scenarios` (scenarios.dfy): the British and German examples of the table, worked through the whole model.

## Model

The central definitions carry no contract of their own and appear below through the lemmas about them: `Iso7064Mod97_10` through `Iso7064Mod97_10Correct`, `IsValidAsWritten` and `IsValid` through `CorrectedAgrees` and `IsValidCharacterized`, `Load` through the `Load…` lemmas, and `Matches` through `MatchesIffPositional`.

| member | source | states |
|---|---|---|
| Checksum.Rotate | iban_validator/validate.cpp:20 | the rotated text is as long as the IBAN, and position i holds the character from position (i + 4) modulo the length |
| Decimal.ToDecimal | iban_validator/validate.cpp:27-41 | `std::to_string` of a non-negative number, as used at lines 27 and 39: a digit text denoting the number, with no leading zero, one digit exactly below 10 and at most two below 100 |
| Decimal.TwoDigits | iban_validator/validate.cpp:39-41 | the remainder text, with a 0 put in front below 10, is always exactly two digits and denotes the number |
| Checksum.ExpandChar | iban_validator/validate.cpp:24-27 | a digit contributes itself; an upper-case letter contributes two digits whose value is its alphabet position plus 10; any other character contributes nothing |
| Checksum.Expand | iban_validator/validate.cpp:21-28 | the number string is made only of digits; what each character contributes, and in what order, is stated by `ExpandChar` and `ExpandConcat` |
| Checksum.ExpandConcat | iban_validator/validate.cpp:22-28 | the number string of a concatenation is the concatenation of the number strings, so characters are expanded one by one, in order |
| Checksum.ExpandDigits | iban_validator/validate.cpp:24-25 | a text of digits is copied into the number string unchanged |
| Checksum.ExpandLength | iban_validator/validate.cpp:22-28 | a text of digits and upper-case letters expands to at least as many digits as it has characters, and an all-letter text to exactly twice as many |
| Checksum.Carry | iban_validator/validate.cpp:38-41 | the carried text is always exactly two digits, and its value is the window's remainder modulo 97 (0 to 96) |
| Checksum.Windows | iban_validator/validate.cpp:32-45 | the loop hands at least one text to `stol`, and the first of them begins with the carried text |
| Checksum.WindowsUnfold | iban_validator/validate.cpp:36-44 | one loop turn reads the carry plus `step` fresh digits, then continues at `segstart + step` with step 7 and that window's carry, still within the string |
| Checksum.FitsLongBelow | iban_validator/validate.cpp:37 | a text of one to nine digits denotes a number below 10^9, so `stol` can read it without overflow |
| Checksum.WindowsFit | iban_validator/validate.cpp:36-45 | every text handed to `stol`, including the last, has between one and nine digits, so no conversion overflows |
| Checksum.WindowsCarry | iban_validator/validate.cpp:38-43 | every window after the first opens with the two-digit remainder of the window before it |
| Checksum.WindowsCover | iban_validator/validate.cpp:36-45 | the windows' fresh digits, in order, are exactly the number string from `segstart` on: nothing is skipped or read twice, so the loop ends inside the string |
| Checksum.Mod97IsRemainder | iban_validator/validate.cpp:38 | reducing modulo 97 after every digit gives the remainder of the whole number |
| Checksum.CarryKeepsRemainder | iban_validator/validate.cpp:38-41 | replacing a window by its two-digit carry keeps its remainder modulo 97 |
| Checksum.CarryStep | iban_validator/validate.cpp:37-42 | if the carried text is congruent to the digits consumed so far, the next carry is congruent to the digits consumed after the window |
| Checksum.LastStep | iban_validator/validate.cpp:45 | the final window (carry plus the remaining digits) is congruent to the whole number string |
| Checksum.WindowsRemainder | iban_validator/validate.cpp:32-46 | the last window read by `stol` has the same remainder modulo 97 as the whole number string |
| Checksum.Iso7064Mod97_10Correct | iban_validator/validate.cpp:19-47 | the function fails exactly when the number string has fewer than nine digits; otherwise it returns true exactly when the whole number string is 1 modulo 97 |
| Structure.SelectorClasses | iban_validator/validate.cpp:72-80 | F admits exactly the digits; A, B and W digits and upper-case letters; C, L and U upper-case letters; any other selector admits nothing |
| Structure.ParseBlock | iban_validator/validate.cpp:67-68 | a block parses exactly when its last two characters are digits; it then yields the selector and their value (below 100); otherwise `invalid_argument` |
| Structure.ParseStructure | iban_validator/validate.cpp:64-85 | a parsed structure has one block per whole 3-character group, and every block length is below 100 |
| Structure.SelectorAtIsBlock | iban_validator/validate.cpp:82 | the class governing any position of a matching string is the class of one of the blocks |
| Structure.MatchesIffPositional | iban_validator/validate.cpp:82-88 | matching the anchored group-by-group pattern is equivalent to having the total block length and each character admitted by the block covering its position |
| Structure.MatchLength | iban_validator/validate.cpp:82-88 | a matching string is exactly as long as the sum of the block lengths |
| Structure.Render | iban_validator/validate.cpp:64-68 | writing a block list as text gives three characters per block |
| Structure.ParseRender | iban_validator/validate.cpp:64-85 | parsing the text of a block list gives the list back |
| Structure.RenderParse | iban_validator/validate.cpp:64-85 | writing out a parsed structure gives the structure back, minus the 1-2 trailing characters that form no block |
| Registry.AddSpecification | iban_validator/validate.cpp:8-11 | the spec is filed under its own country code, replacing any earlier entry; every other code keeps its entry, and no other key appears |
| Registry.AddKeepsKeyed | iban_validator/validate.cpp:10 | if every entry is filed under its own code, that still holds after adding a spec |
| Registry.LoadKeys | iban_validator/validate.cpp:118-221 | loading a table adds exactly the country codes of its entries |
| Registry.LoadKeepsKeyed | iban_validator/validate.cpp:118-221 | a loaded registry still files every entry under its own code |
| Registry.LoadValues | iban_validator/validate.cpp:118-221 | every entry of a loaded registry comes from the starting registry or from the table |
| Registry.LoadUntouched | iban_validator/validate.cpp:118-221 | loading a table that does not mention a code leaves that code's entry, or its absence, unchanged |
| Registry.LoadAppend | iban_validator/validate.cpp:118-221 | loading a table in two parts is the same as loading it at once |
| Registry.LoadFind | iban_validator/validate.cpp:8-11 | after loading, a code holds the last table entry with that code |
| Registry.ShapeParses | iban_validator/validate.cpp:64-85 | a structure that passes the single-pass check is whole blocks, parses, uses only A, F and U, and its block lengths sum to the expected amount |
| Registry.ShapeCheckedWellFormed | iban_validator/validate.cpp:118-221 | an entry that passes the single-pass check is a well-formed specification |
| Registry.Seed1Checked | iban_validator/validate.cpp:120-125 | entries AD to BA pass `ShapeChecked`, the single-pass structure check |
| Registry.Seed2Checked | iban_validator/validate.cpp:126-131 | entries BE to CR pass `ShapeChecked`, the single-pass structure check |
| Registry.Seed3Checked | iban_validator/validate.cpp:132-137 | entries CY to EE pass `ShapeChecked`, the single-pass structure check |
| Registry.Seed4Checked | iban_validator/validate.cpp:138-143 | entries ES to GE pass `ShapeChecked`, the single-pass structure check |
| Registry.Seed5Checked | iban_validator/validate.cpp:144-149 | entries GI to HU pass `ShapeChecked`, the single-pass structure check |
| Registry.Seed6Checked | iban_validator/validate.cpp:150-155 | entries IE to KZ pass `ShapeChecked`, the single-pass structure check |
| Registry.Seed7Checked | iban_validator/validate.cpp:156-161 | entries LB to LV pass `ShapeChecked`, the single-pass structure check |
| Registry.Seed8Checked | iban_validator/validate.cpp:162-167 | entries MC to MT pass `ShapeChecked`, the single-pass structure check |
| Registry.Seed9Checked | iban_validator/validate.cpp:168-173 | entries MU to PS pass `ShapeChecked`, the single-pass structure check |
| Registry.Seed10Checked | iban_validator/validate.cpp:174-179 | entries PT to SI pass `ShapeChecked`, the single-pass structure check |
| Registry.Seed11Checked | iban_validator/validate.cpp:180-185 | entries SK to TR pass `ShapeChecked`, the single-pass structure check |
| Registry.Seed12Checked | iban_validator/validate.cpp:186-196 | entries VG to BJ pass `ShapeChecked`, the single-pass structure check |
| Registry.Seed13Checked | iban_validator/validate.cpp:198-208 | entries CI to JO pass `ShapeChecked`, the single-pass structure check |
| Registry.Seed14Checked | iban_validator/validate.cpp:210-220 | entries MG to UA pass `ShapeChecked`, the single-pass structure check |
| Registry.SeedTableWellFormed | iban_validator/validate.cpp:120-220 | every one of the 84 entries has a two-letter upper-case code and a length of four plus its block lengths (at least 9); its structure is whole blocks using only A, F and U |
| Registry.GBOnce | iban_validator/validate.cpp:142 | entry 4 of `Seed4` is line 142's GB entry, and no other entry of the table has the code GB |
| Registry.SeedHasGB | iban_validator/validate.cpp:142 | a fresh validator holds the GB entry: length 22, structure U04F06F08 |
| Registry.DEOnce | iban_validator/validate.cpp:134 | entry 2 of `Seed3` is line 134's DE entry, and no other entry of the table has the code DE |
| Registry.SeedHasDE | iban_validator/validate.cpp:134 | a fresh validator holds the DE entry: length 22, structure F08F10 |
| Registry.SeedRegistryWellFormed | iban_validator/validate.cpp:118-221 | a fresh validator files every spec under its own code, and every spec is well formed |
| Validator.Upper | iban_validator/validate.cpp:101 | upper-casing keeps the length and maps every character through ASCII `toupper` |
| Validator.UpperIdempotent | iban_validator/validate.cpp:101 | upper-casing twice changes nothing more |
| Validator.UpperUnchanged | iban_validator/validate.cpp:101 | upper-casing leaves a text unchanged exactly when it has no lower-case ASCII letter |
| Validator.CountryCode | iban_validator/validate.cpp:102 | the country code is a prefix of the text, two characters long, or the whole text when that is shorter |
| Validator.CorrectedAgrees | iban_validator/validate.cpp:96-116 | the corrected function accepts exactly what the source accepts, and agrees wherever the source returns; the source throws `out_of_range` on a short input exactly when the code is known; short inputs are never valid |
| Validator.IsValidCharacterized | iban_validator/validate.cpp:101-111 | valid exactly when all of these hold on the upper-cased input: at least four characters, known code, equal length and code, structure parses, BBAN fits the blocks position by position, number string of at least nine digits and 1 modulo 97 |
| Validator.UnknownCodeRejected | iban_validator/validate.cpp:104-115 | an input whose first two characters name no specification yields false and never throws |
| Validator.CaseInsensitive | iban_validator/validate.cpp:101 | inputs that agree up to the case of ASCII letters get the same verdict, both as written and corrected |
| Validator.UpperSameVerdict | iban_validator/validate.cpp:101 | an input and its upper-case form get the same verdict |
| Validator.AfuMatchAlphanumeric | iban_validator/validate.cpp:72-80 | a BBAN that matches a structure of A, F and U blocks has only digits and upper-case letters |
| Validator.RotatedLength | iban_validator/validate.cpp:20-28 | an input of upper-case code and digit or upper-case body expands to at least as many digits as it has characters |
| Validator.WellFormedThrowsOnlyShort | iban_validator/validate.cpp:107-111 | on a registry of well-formed specs, the source throws exactly for a short input with a known code |
| Validator.SeedThrowsOnlyShort | iban_validator/validate.cpp:96-116 | a fresh validator throws exactly for an input shorter than four characters whose code it knows |
| Scenarios.GBStructure | iban_validator/validate.cpp:142 | the GB structure parses to U×4, F×6, F×8 |
| Scenarios.GBBbanMatches | iban_validator/validate.cpp:142 | the GB example's BBAN matches the GB structure |
| Scenarios.GBNumber | iban_validator/validate.cpp:142 | a GB IBAN with this BBAN passes the checksum exactly when its check digits are 29 |
| Scenarios.GBVerdict | iban_validator/validate.cpp:142 | a fresh validator accepts a GB IBAN with this BBAN exactly when its check digits are 29, and never throws on it |
| Scenarios.DEStructure | iban_validator/validate.cpp:134 | the DE structure parses to F×8, F×10 |
| Scenarios.DEBbanMatches | iban_validator/validate.cpp:134 | the DE example's BBAN matches the DE structure |
| Scenarios.DENumber | iban_validator/validate.cpp:134 | a DE IBAN with this BBAN passes the checksum exactly when its check digits are 89 |
| Scenarios.DEVerdict | iban_validator/validate.cpp:134 | a fresh validator accepts a DE IBAN with this BBAN exactly when its check digits are 89, and never throws on it |
| Scenarios.GBExampleValid | iban_validator/validate.cpp:142 | the GB example `GB29NWBK60161331926819` passes every check |
| Scenarios.DEExampleValid | iban_validator/validate.cpp:134 | the DE example `DE89370400440532013000` passes every check |
| Scenarios.GBWrongCheckDigits | iban_validator/validate.cpp:108-111 | the GB example with check digits 28 is rejected without an exception |
| Scenarios.GBAnyCaseValid | iban_validator/validate.cpp:101 | every input that upper-cases to the GB example, such as `gb29nwbk60161331926819`, is accepted and never throws |
| Scenarios.GBCodeAloneThrows | iban_validator/validate.cpp:107 | on the input `GB` the source throws `out_of_range`, while the corrected function returns false |

## Left out

- `iban_validator/main.cpp` (command-line handling and console output) is not part of this model.
- `iban_validator/Validate.h` holds only declarations and is not part of this model.
- The selected-specification state is not modelled. Each `isValid` is one call on a fresh validator with a read-only registry. In the source:
  - `setSelectedSpecification` moves the entry out of the map (validate.cpp:93);
  - `operator[]` inserts an empty entry for an unknown code;
  - the specification is chosen only on the first call (line 100), so later calls on the same object compare against the placeholder built at line 99.
  This is a known divergence for repeated calls.
- The `std::regex` engine and the `regex_search` loop are not modelled. `Matches` gives the set of strings the compiled anchored pattern accepts.
- Structure.ParseStructure always cuts a structure at fixed 3-character offsets. The source's `regex_search` with `(.{3})` searches instead, and `.` matches neither `\n` nor `\r`, so a structure containing a line break would be cut differently. No table entry contains one.
- Exceptions are values. `IsValidAsWritten` and `Iso7064Mod97_10` return `Result`, carrying `OutOfRange` for `std::out_of_range` and `InvalidArgument` for `std::invalid_argument`.
  - A number string shorter than nine digits ends in `std::stol("")` when empty. Otherwise it ends in a `substr(9, …)` past its end, because `length() - step` wraps around as an unsigned value.
  - For the seed registry these cases are unreachable (`SeedThrowsOnlyShort`).
- Structure.ParseBlock: `std::stoi` is modelled only on two ASCII digits, and every other count text is reported as `invalid_argument`.
  - The source reads ` 5`, `+5` and `5x` as 5 and goes on.
  - It reads a signed count such as `-5` (block `F-5`) in full as -5. The `std::regex` constructor at line 88 then rejects the pattern `([0-9]{-5})` and throws `std::regex_error`, which the model does not distinguish.
  - No table entry has such a block.
- Selector quirks are modelled as the source writes them:
  - an unknown selector compiles to an empty class that admits nothing;
  - A and C list `A-Z` twice, so they admit no lower-case letter;
  - L means `A-Z`.
  The table uses only A, F and U.
- `toupper`, `isupper` and `isdigit` are modelled for the "C" locale: ASCII only, with no other locale behaviour.
- The input is modelled as ASCII text, one character per byte. The source's `std::string` counts UTF-8 bytes in its length test (validate.cpp:103, 108) and in `substr(4)` (line 107), and passes negative `char` values to `toupper`, `isdigit` and `isupper`, which is undefined. The model's verdicts on non-ASCII input say nothing about the program.
- The `example` field is stored in each specification but not checked as data; only the GB and DE examples are worked through.
- `long` is not modelled with a fixed width. `WindowsFit` proves that every text handed to `std::stol` has one to nine digits, and `FitsLongBelow` that such a text denotes less than 10^9, so none overflows.

## Findings

| source | as written | input that shows it | evidently intended | confidence | as-written member | corrected member |
|---|---|---|---|---|---|---|
| iban_validator/validate.cpp:107 | `substr(4, …)` cuts off the BBAN before the length is compared, so a known country code with fewer than four characters throws `std::out_of_range` | `GB` | a short input is simply not a valid IBAN | not executed | Scenarios.GBCodeAloneThrows | Validator.CorrectedAgrees |

=== FILE: checksum.dfy ===
/** The ISO/IEC 7064 MOD 97-10 check as `iso7064Mod97_10` performs it
    (iban_validator/validate.cpp:19-47): rotate, expand letters to numbers,
    then reduce modulo 97 in windows of at most nine digits. */
module Checksum {
  import opened Wrappers
  import opened Decimal
  import opened Modular

  /** `std::rotate(b, b + 4, e)`: the first four characters move to the end. */
  function Rotate(s: string): (r: string)
    requires |s| >= 4
    ensures |r| == |s|
    ensures forall i :: 0 <= i < |s| ==> r[i] == s[(i + 4) % |s|]
  {
    var r := s[4..] + s[..4];
    forall i | 0 <= i < |s|
      ensures r[i] == s[(i + 4) % |s|]
    {
      if i + 4 < |s| {
        assert (i + 4) % |s| == i + 4;
      } else {
        assert (i + 4) % |s| == i + 4 - |s|;
      }
    }
    r
  }

  /** The text one character contributes to the number string: a digit
      itself, an upper-case letter the decimal text of its code minus 55
      (A is 10, Z is 35), anything else nothing. */
  function ExpandChar(c: char): (r: string)
    ensures AllDigits(r)
    ensures IsDigit(c) ==> r == [c]
    ensures IsUpper(c) ==> |r| == 2 && Value(r) == c as int - 'A' as int + 10
    ensures !IsDigit(c) && !IsUpper(c) ==> r == []
  {
    var fromDigit := if IsDigit(c) then [c] else [];
    var fromLetter := if IsUpper(c) then ToDecimal(c as int - 55) else [];
    assert fromDigit + fromLetter == if IsDigit(c) then fromDigit else fromLetter;
    fromDigit + fromLetter
  }

  /** The number string of validate.cpp:21-28, built left to right. */
  function Expand(s: string): (r: string)
    ensures AllDigits(r)
  {
    if |s| == 0 then []
    else
      var head, tail := ExpandChar(s[0]), Expand(s[1..]);
      AllDigitsConcat(head, tail);
      head + tail
  }

  /** Expansion works character by character, in order. */
  lemma {:induction false} ExpandConcat(a: string, b: string)
    ensures Expand(a + b) == Expand(a) + Expand(b)
  {
    if |a| == 0 {
      assert a + b == b;
    } else {
      assert (a + b)[0] == a[0];
      assert (a + b)[1..] == a[1..] + b;
      ExpandConcat(a[1..], b);
    }
  }

  /** A string of digits is copied into the number string unchanged. */
  lemma {:induction false} ExpandDigits(s: string)
    requires AllDigits(s)
    ensures Expand(s) == s
  {
    if |s| > 0 {
      assert AllDigits(s[1..]);
      ExpandDigits(s[1..]);
      assert s == [s[0]] + s[1..];
    }
  }

  /** A single character expands to its own text. */
  lemma ExpandOne(c: char)
    ensures Expand([c]) == ExpandChar(c)
  {
    assert [c][1..] == [];
  }

  /** A four-character text expands character by character. */
  lemma ExpandFour(s: string)
    requires |s| == 4
    ensures Expand(s) == ExpandChar(s[0]) + ExpandChar(s[1]) + ExpandChar(s[2]) + ExpandChar(s[3])
  {
    assert s == [s[0]] + [s[1]] + [s[2]] + [s[3]];
    ExpandConcat([s[0]] + [s[1]] + [s[2]], [s[3]]);
    ExpandConcat([s[0]] + [s[1]], [s[2]]);
    ExpandConcat([s[0]], [s[1]]);
    ExpandOne(s[0]);
    ExpandOne(s[1]);
    ExpandOne(s[2]);
    ExpandOne(s[3]);
  }

  /** The number string of a concatenation, read as a number: the first
      part's number shifted left by the length of the second part's text. */
  lemma ExpandValueAppend(a: string, b: string)
    ensures Value(Expand(a + b)) == Value(Expand(a)) * Pow10(|Expand(b)|) + Value(Expand(b))
  {
    ExpandConcat(a, b);
    ValueAppend(Expand(a), Expand(b));
  }

  /** Digits and upper-case letters each give at least one digit, and
      upper-case letters exactly two. */
  lemma {:induction false} ExpandLength(s: string)
    requires forall i :: 0 <= i < |s| ==> IsDigit(s[i]) || IsUpper(s[i])
    ensures |Expand(s)| >= |s|
    ensures (forall i :: 0 <= i < |s| ==> IsUpper(s[i])) ==> |Expand(s)| == 2 * |s|
  {
    if |s| > 0 {
      assert forall i :: 0 <= i < |s[1..]| ==> s[1..][i] == s[i + 1];
      ExpandLength(s[1..]);
    }
  }

  /** The whole number string, read as one decimal number, is 1 modulo 97:
      the acceptance condition of ISO/IEC 7064 MOD 97-10 for an IBAN. */
  predicate ChecksumHolds(iban: string)
    requires |iban| >= 4
  {
    Value(Expand(Rotate(iban))) % 97 == 1
  }

  /** A state of the loop at validate.cpp:36-44: the next window starts at
      `segstart`, is `step` digits long and is preceded by `prepended`. */
  predicate LoopState(digits: string, segstart: nat, step: nat, prepended: string)
  {
    && AllDigits(digits) && AllDigits(prepended) && 9 <= |digits| && segstart < |digits|
    && ((segstart == 0 && step == 9 && prepended == []) || (step == 7 && |prepended| == 2))
  }

  /** The text carried into the next window (validate.cpp:38-41): the
      remainder of this window modulo 97, as exactly two digits. */
  function Carry(chunk: string): (r: string)
    requires AllDigits(chunk)
    ensures |r| == 2 && AllDigits(r) && Value(r) == Value(chunk) % 97
  {
    TwoDigits(Value(chunk) % 97)
  }

  /** The texts handed to `std::stol`, in order, by the loop at
      validate.cpp:36-44 and the final call at line 45. */
  function Windows(digits: string, segstart: nat, step: nat, prepended: string): (chunks: seq<string>)
    requires LoopState(digits, segstart, step, prepended)
    ensures |chunks| >= 1 && prepended < chunks[0]
    decreases |digits| - segstart
  {
    if segstart < |digits| - step then
      var chunk := prepended + digits[segstart..segstart + step];
      AllDigitsConcat(prepended, digits[segstart..segstart + step]);
      [chunk] + Windows(digits, segstart + step, 7, Carry(chunk))
    else
      [prepended + digits[segstart..]]
  }

  /** The window the final `std::stol` reads (validate.cpp:45). */
  function Last(chunks: seq<string>): string
    requires |chunks| >= 1
  {
    chunks[|chunks| - 1]
  }

  /** One turn of the loop: the first window is the carried text followed by
      `step` fresh digits, and the loop goes on with that window's carry. */
  lemma WindowsUnfold(digits: string, segstart: nat, step: nat, prepended: string) returns (carried: string)
    requires LoopState(digits, segstart, step, prepended) && segstart < |digits| - step
    ensures AllDigits(prepended + digits[segstart..segstart + step])
    ensures carried == Carry(prepended + digits[segstart..segstart + step])
    ensures LoopState(digits, segstart + step, 7, carried)
    ensures Windows(digits, segstart, step, prepended)
            == [prepended + digits[segstart..segstart + step]] + Windows(digits, segstart + step, 7, carried)
  {
    AllDigitsConcat(prepended, digits[segstart..segstart + step]);
    carried := Carry(prepended + digits[segstart..segstart + step]);
  }

  /** A non-empty text of at most nine digits: `std::stol` reads it as a
      number below 10^9, which fits even a 32-bit `long`. */
  predicate FitsLong(chunk: string)
  {
    AllDigits(chunk) && 1 <= |chunk| <= 9
  }

  /** What such a text denotes is below 10^9, far inside the range of `long`. */
  lemma FitsLongBelow(chunk: string)
    requires FitsLong(chunk)
    ensures Value(chunk) < 1000000000
  {
    ValueBound(chunk);
    Pow10Add(|chunk|, 9 - |chunk|);
    assert Pow10(9) == 1000000000;
  }

  /** Every text handed to `std::stol` is a digit string of one to nine
      digits, so none of the conversions can overflow. */
  lemma {:induction false} WindowsFit(digits: string, segstart: nat, step: nat, prepended: string)
    requires LoopState(digits, segstart, step, prepended)
    ensures var chunks := Windows(digits, segstart, step, prepended);
            forall i :: 0 <= i < |chunks| ==> FitsLong(chunks[i])
    ensures FitsLong(Last(Windows(digits, segstart, step, prepended)))
    decreases |digits| - segstart
  {
    var chunks := Windows(digits, segstart, step, prepended);
    if segstart < |digits| - step {
      var carried := WindowsUnfold(digits, segstart, step, prepended);
      WindowsFit(digits, segstart + step, 7, carried);
      var rest := Windows(digits, segstart + step, 7, carried);
      AllDigitsConcat(prepended, digits[segstart..segstart + step]);
      assert FitsLong(chunks[0]);
      assert forall i :: 1 <= i < |chunks| ==> chunks[i] == rest[i - 1];
    } else {
      AllDigitsConcat(prepended, digits[segstart..]);
      assert chunks == [prepended + digits[segstart..]];
    }
  }

  /** `next` opens with the remainder of `prev` modulo 97, written as exactly
      two digits (validate.cpp:38-41). */
  predicate CarriesRemainder(prev: string, next: string)
  {
    AllDigits(prev) && Carry(prev) < next
  }

  /** Every window after the first opens with the carried remainder of the
      window before it. */
  predicate CarriesAll(chunks: seq<string>)
  {
    |chunks| <= 1 || (CarriesRemainder(chunks[0], chunks[1]) && CarriesAll(chunks[1..]))
  }

  /** The loop keeps its carry discipline: the remainder of each window is
      handed on, as two digits, to the next. */
  lemma {:induction false} WindowsCarry(digits: string, segstart: nat, step: nat, prepended: string)
    requires LoopState(digits, segstart, step, prepended)
    ensures CarriesAll(Windows(digits, segstart, step, prepended))
    decreases |digits| - segstart
  {
    if segstart < |digits| - step {
      var carried := WindowsUnfold(digits, segstart, step, prepended);
      WindowsCarry(digits, segstart + step, 7, carried);
      var chunks := Windows(digits, segstart, step, prepended);
      assert chunks[1..] == Windows(digits, segstart + step, 7, carried);
    }
  }

  /** The digits the windows after the first read fresh from the number
      string: each of them without its two carried digits. */
  function FreshTails(chunks: seq<string>): string
  {
    if |chunks| == 0 then []
    else (if |chunks[0]| >= 2 then chunks[0][2..] else []) + FreshTails(chunks[1..])
  }

  /** The windows read the number string from `segstart` on exactly once,
      left to right: no digit is skipped and none is read twice. */
  lemma {:induction false} WindowsCover(digits: string, segstart: nat, step: nat, prepended: string)
    requires LoopState(digits, segstart, step, prepended)
    ensures var chunks := Windows(digits, segstart, step, prepended);
            chunks[0][|prepended|..] + FreshTails(chunks[1..]) == digits[segstart..]
    decreases |digits| - segstart
  {
    var chunks := Windows(digits, segstart, step, prepended);
    if segstart < |digits| - step {
      var mid := digits[segstart..segstart + step];
      var carried := WindowsUnfold(digits, segstart, step, prepended);
      WindowsCover(digits, segstart + step, 7, carried);
      var rest := Windows(digits, segstart + step, 7, carried);
      assert chunks[0][|prepended|..] == mid;
      assert FreshTails(chunks[1..]) == digits[segstart + step..] by {
        assert chunks[1..] == rest;
        assert FreshTails(rest) == rest[0][2..] + FreshTails(rest[1..]);
      }
      assert digits[segstart..] == mid + digits[segstart + step..];
    } else {
      assert chunks[1..] == [];
    }
  }

  /** The remainder modulo 97 of a digit string, computed digit by digit
      (Horner's rule, reducing after every digit). */
  function Mod97(s: string): (r: nat)
    requires AllDigits(s)
    ensures r < 97
  {
    if |s| == 0 then 0 else (Mod97(s[..|s| - 1]) * 10 + DigitValue(s[|s| - 1])) % 97
  }

  /** Digit-by-digit reduction yields the remainder of the whole number. */
  lemma {:induction false} Mod97IsRemainder(s: string)
    requires AllDigits(s)
    ensures Mod97(s) == Value(s) % 97
  {
    if |s| > 0 {
      var init := s[..|s| - 1];
      Mod97IsRemainder(init);
      ModTimesTen(Value(init), DigitValue(s[|s| - 1]));
    }
  }

  /** Digits appended to strings with equal remainders give equal remainders. */
  lemma {:induction false} Mod97Append(p: string, c: string, tail: string)
    requires AllDigits(p) && AllDigits(c) && AllDigits(tail)
    requires Mod97(p) == Mod97(c)
    ensures AllDigits(p + tail) && AllDigits(c + tail)
    ensures Mod97(p + tail) == Mod97(c + tail)
  {
    AllDigitsConcat(p, tail);
    AllDigitsConcat(c, tail);
    if |tail| > 0 {
      var init := tail[..|tail| - 1];
      Mod97Append(p, c, init);
      assert (p + tail)[..|p + tail| - 1] == p + init;
      assert (c + tail)[..|c + tail| - 1] == c + init;
      assert (p + tail)[|p + tail| - 1] == (c + tail)[|c + tail| - 1];
    } else {
      assert p + tail == p && c + tail == c;
    }
  }

  /** The carried text has the remainder of the window it was taken from. */
  lemma CarryKeepsRemainder(chunk: string)
    requires AllDigits(chunk)
    ensures Mod97(Carry(chunk)) == Mod97(chunk)
  {
    var c := Carry(chunk);
    Mod97IsRemainder(chunk);
    Mod97IsRemainder(c);
    ModIdempotent(Value(chunk));
  }

  /** One turn of the loop keeps the carried text congruent to the digits
      consumed so far. */
  lemma CarryStep(digits: string, segstart: nat, step: nat, prepended: string)
    requires LoopState(digits, segstart, step, prepended) && segstart < |digits| - step
    requires Mod97(prepended) == Mod97(digits[..segstart])
    ensures AllDigits(prepended + digits[segstart..segstart + step])
    ensures Mod97(Carry(prepended + digits[segstart..segstart + step])) == Mod97(digits[..segstart + step])
  {
    var mid := digits[segstart..segstart + step];
    AllDigitsConcat(prepended, mid);
    CarryKeepsRemainder(prepended + mid);
    Mod97Append(prepended, digits[..segstart], mid);
    assert digits[..segstart] + mid == digits[..segstart + step];
  }

  /** The final window: the carried text followed by the rest of the digits. */
  lemma LastStep(digits: string, segstart: nat, prepended: string)
    requires AllDigits(digits) && AllDigits(prepended) && segstart <= |digits|
    requires Mod97(prepended) == Mod97(digits[..segstart])
    ensures AllDigits(prepended + digits[segstart..])
    ensures Mod97(prepended + digits[segstart..]) == Mod97(digits)
  {
    var rest := digits[segstart..];
    Mod97Append(prepended, digits[..segstart], rest);
    assert digits[..segstart] + rest == digits;
  }

  /** From any loop state whose carried text has the remainder of the digits
      consumed so far, the last window read by `std::stol` has the remainder
      of the whole number string. */
  lemma {:induction false} WindowsRemainder(digits: string, segstart: nat, step: nat, prepended: string)
    requires LoopState(digits, segstart, step, prepended)
    requires Mod97(prepended) == Mod97(digits[..segstart])
    ensures AllDigits(Last(Windows(digits, segstart, step, prepended)))
    ensures Mod97(Last(Windows(digits, segstart, step, prepended))) == Mod97(digits)
    decreases |digits| - segstart
  {
    var chunks := Windows(digits, segstart, step, prepended);
    if segstart < |digits| - step {
      CarryStep(digits, segstart, step, prepended);
      var carried := WindowsUnfold(digits, segstart, step, prepended);
      WindowsRemainder(digits, segstart + step, 7, carried);
      assert Last(chunks) == Last(Windows(digits, segstart + step, 7, carried));
    } else {
      LastStep(digits, segstart, prepended);
      assert Last(chunks) == prepended + digits[segstart..];
    }
  }

  /** `iso7064Mod97_10` (validate.cpp:19-47). A number string shorter than
      nine digits makes the source throw: an empty one reaches `std::stol("")`,
      a shorter non-empty one `substr(9, ...)` past its end, because
      `length() - step` wraps around as an unsigned value. */
  function Iso7064Mod97_10(iban: string): Result<bool, StdException>
    requires |iban| >= 4
  {
    var digits := Expand(Rotate(iban));
    if |digits| == 0 then Failure(InvalidArgument)
    else if |digits| < 9 then Failure(OutOfRange)
    else
      var chunks := Windows(digits, 0, 9, []);
      WindowsFit(digits, 0, 9, []);
      Success(Value(Last(chunks)) % 97 == 1)
  }

  /** The windowed computation decides exactly the MOD 97-10 condition on the
      whole number string, and fails only when that string has fewer than
      nine digits. */
  lemma Iso7064Mod97_10Correct(iban: string)
    requires |iban| >= 4
    ensures Iso7064Mod97_10(iban).Success? <==> |Expand(Rotate(iban))| >= 9
    ensures Iso7064Mod97_10(iban).Success? ==> (Iso7064Mod97_10(iban).value <==> ChecksumHolds(iban))
  {
    var digits := Expand(Rotate(iban));
    if |digits| >= 9 {
      assert digits[..0] == [];
      WindowsRemainder(digits, 0, 9, []);
      Mod97IsRemainder(Last(Windows(digits, 0, 9, [])));
      Mod97IsRemainder(digits);
    }
  }
}

=== FILE: decimal.dfy ===
/** Decimal digit strings: the text form in which the checksum does its arithmetic. */
module Decimal {

  /** `std::isdigit` in the "C" locale. */
  predicate IsDigit(c: char) { '0' <= c <= '9' }

  /** `std::isupper` in the "C" locale. */
  predicate IsUpper(c: char) { 'A' <= c <= 'Z' }

  predicate AllDigits(s: string) {
    forall i :: 0 <= i < |s| ==> IsDigit(s[i])
  }

  function DigitValue(c: char): nat
    requires IsDigit(c)
  {
    c as int - '0' as int
  }

  function DigitChar(d: nat): (c: char)
    requires d < 10
    ensures IsDigit(c) && DigitValue(c) == d
  {
    (d + '0' as int) as char
  }

  function Pow10(k: nat): (p: nat)
    ensures p >= 1
  {
    if k == 0 then 1 else 10 * Pow10(k - 1)
  }

  /** Shifting by a and then by b places is shifting by a + b places. */
  lemma {:induction false} Pow10Add(a: nat, b: nat)
    ensures Pow10(a + b) == Pow10(a) * Pow10(b)
  {
    if b > 0 {
      Pow10Add(a, b - 1);
    }
  }

  /** The number a string of decimal digits denotes, most significant digit
      first; this is what `std::stoi` and `std::stol` read from such a string. */
  function Value(s: string): nat
    requires AllDigits(s)
  {
    if |s| == 0 then 0 else Value(s[..|s| - 1]) * 10 + DigitValue(s[|s| - 1])
  }

  lemma AllDigitsConcat(a: string, b: string)
    requires AllDigits(a) && AllDigits(b)
    ensures AllDigits(a + b)
  {
  }

  lemma ShiftStep(va: nat, vb: nat, p: nat, d: nat)
    ensures (va * p + vb) * 10 + d == va * (p * 10) + (vb * 10 + d)
  {
  }

  /** Writing `b` after `a` shifts `a` left by `|b|` decimal places. */
  lemma {:induction false} ValueAppend(a: string, b: string)
    requires AllDigits(a) && AllDigits(b)
    ensures AllDigits(a + b)
    ensures Value(a + b) == Value(a) * Pow10(|b|) + Value(b)
  {
    AllDigitsConcat(a, b);
    if |b| == 0 {
      assert a + b == a;
    } else {
      var b' := b[..|b| - 1];
      var ab := a + b;
      assert ab[..|ab| - 1] == a + b';
      assert ab[|ab| - 1] == b[|b| - 1];
      ValueAppend(a, b');
      var d := DigitValue(b[|b| - 1]);
      assert Value(ab) == Value(a + b') * 10 + d;
      assert Value(b) == Value(b') * 10 + d;
      ShiftStep(Value(a), Value(b'), Pow10(|b'|), d);
    }
  }

  /** A string of k digits denotes a number below 10^k. */
  lemma {:induction false} ValueBound(s: string)
    requires AllDigits(s)
    ensures Value(s) < Pow10(|s|)
  {
    if |s| > 0 {
      ValueBound(s[..|s| - 1]);
    }
  }

  /** A two-digit text denotes ten times its first digit plus its second. */
  lemma ValueOfTwo(t: string)
    requires |t| == 2 && AllDigits(t)
    ensures Value(t) == DigitValue(t[0]) * 10 + DigitValue(t[1])
  {
    var first := t[..1];
    assert first[..0] == [] && first[0] == t[0];
    assert Value(first) == DigitValue(t[0]);
  }

  /** A four-digit text denotes its digits weighted by 1000, 100, 10 and 1. */
  lemma ValueOfFour(t: string)
    requires |t| == 4 && AllDigits(t)
    ensures Value(t) == DigitValue(t[0]) * 1000 + DigitValue(t[1]) * 100 + DigitValue(t[2]) * 10 + DigitValue(t[3])
  {
    assert t == t[..2] + t[2..];
    ValueOfTwo(t[..2]);
    ValueOfTwo(t[2..]);
    ValueAppend(t[..2], t[2..]);
    assert Pow10(2) == 100;
  }

  /** `std::to_string` of a non-negative number: its shortest decimal text. */
  function ToDecimal(n: nat): (r: string)
    ensures AllDigits(r) && Value(r) == n
    ensures |r| >= 1 && (|r| == 1 || r[0] != '0')
    ensures |r| == 1 <==> n < 10
    ensures n < 100 ==> |r| <= 2
  {
    if n < 10 then [DigitChar(n)]
    else
      var r := ToDecimal(n / 10) + [DigitChar(n % 10)];
      assert r[..|r| - 1] == ToDecimal(n / 10);
      r
  }

  /** The remainder text of validate.cpp: `to_string(n)`, with a "0" put in
      front when n is below 10. */
  function TwoDigits(n: nat): (r: string)
    requires n < 100
    ensures |r| == 2 && AllDigits(r) && Value(r) == n
  {
    var t := ToDecimal(n);
    if n < 10 then
      ValueAppend("0", t);
      "0" + t
    else t
  }
}

=== FILE: modular.dfy ===
/** Arithmetic facts about remainders modulo 97. */
module Modular {

  lemma ModAddMultiple(q: nat, y: nat)
    ensures (97 * q + y) % 97 == y % 97
  {
  }

  /** Appending a digit commutes with reduction modulo 97. */
  lemma ModTimesTen(x: nat, d: nat)
    ensures (x * 10 + d) % 97 == ((x % 97) * 10 + d) % 97
  {
    var q, r := x / 97, x % 97;
    assert x == 97 * q + r;
    var y := r * 10 + d;
    assert x * 10 + d == 97 * (10 * q) + y;
    ModAddMultiple(10 * q, y);
  }

  /** Reducing twice is reducing once. */
  lemma ModIdempotent(x: nat)
    ensures (x % 97) % 97 == x % 97
  {
  }
}

=== FILE: registry.dfy ===
/** The registry of IBAN formats: `Validate::addSpecification`
    (iban_validator/validate.cpp:8-11) and the table the `Validate`
    constructor loads (validate.cpp:118-221). The registry is an immutable
    map from country code to specification. */
module Registry {
  import opened Wrappers
  import opened Decimal
  import opened Structure

  /** A `Specification`: country code, IBAN length, BBAN structure and an
      example IBAN. */
  datatype Spec = Spec(countryCode: string, length: nat, structure: string, example: string)

  type Registry = map<string, Spec>

  /** Every entry is filed under its own country code. */
  predicate KeyedByCode(reg: Registry)
  {
    forall code :: code in reg ==> reg[code].countryCode == code
  }

  /** `addSpecification`: files the specification under its own country code,
      replacing any earlier entry for that code and leaving the entries of
      other codes alone. */
  function AddSpecification(reg: Registry, spec: Spec): (r: Registry)
    ensures r.Keys == reg.Keys + {spec.countryCode}
    ensures r[spec.countryCode] == spec
    ensures forall code :: code in reg && code != spec.countryCode ==> r[code] == reg[code]
  {
    reg[spec.countryCode := spec]
  }

  /** Adding a specification keeps every entry filed under its own code. */
  lemma AddKeepsKeyed(reg: Registry, spec: Spec)
    requires KeyedByCode(reg)
    ensures KeyedByCode(AddSpecification(reg, spec))
  {
  }

  /** The country codes of the entries of a table. */
  function Codes(table: seq<Spec>): set<string>
  {
    set i | 0 <= i < |table| :: table[i].countryCode
  }

  /** The registry after `addSpecification` of each entry of `table`, in
      order, starting from `reg`. */
  function Load(reg: Registry, table: seq<Spec>): Registry
    decreases |table|
  {
    if |table| == 0 then reg else Load(AddSpecification(reg, table[0]), table[1..])
  }

  /** Loading a table adds exactly the codes of its entries. */
  lemma {:induction false} LoadKeys(reg: Registry, table: seq<Spec>)
    ensures Load(reg, table).Keys == reg.Keys + Codes(table)
    decreases |table|
  {
    if |table| > 0 {
      LoadKeys(AddSpecification(reg, table[0]), table[1..]);
      assert Codes(table) == {table[0].countryCode} + Codes(table[1..]) by {
        forall code | code in Codes(table)
          ensures code in {table[0].countryCode} + Codes(table[1..])
        {
          var i :| 0 <= i < |table| && table[i].countryCode == code;
          if i > 0 {
            assert table[1..][i - 1] == table[i];
          }
        }
        forall code | code in Codes(table[1..])
          ensures code in Codes(table)
        {
          var i :| 0 <= i < |table[1..]| && table[1..][i].countryCode == code;
          assert table[i + 1] == table[1..][i];
        }
      }
    }
  }

  /** Loading a table keeps every entry filed under its own code. */
  lemma {:induction false} LoadKeepsKeyed(reg: Registry, table: seq<Spec>)
    requires KeyedByCode(reg)
    ensures KeyedByCode(Load(reg, table))
    decreases |table|
  {
    if |table| > 0 {
      AddKeepsKeyed(reg, table[0]);
      LoadKeepsKeyed(AddSpecification(reg, table[0]), table[1..]);
    }
  }

  /** Every entry of a loaded registry came from the registry it started
      from or from the table. */
  lemma {:induction false} LoadValues(reg: Registry, table: seq<Spec>, code: string)
    requires code in Load(reg, table)
    ensures (code in reg && Load(reg, table)[code] == reg[code])
            || exists i :: 0 <= i < |table| && Load(reg, table)[code] == table[i]
    decreases |table|
  {
    if |table| > 0 {
      var next := AddSpecification(reg, table[0]);
      LoadValues(next, table[1..], code);
      if code in next && Load(reg, table)[code] == next[code] && code == table[0].countryCode {
        assert Load(reg, table)[code] == table[0];
      } else if !(code in next && Load(reg, table)[code] == next[code]) {
        var i :| 0 <= i < |table[1..]| && Load(reg, table)[code] == table[1..][i];
        assert table[1..][i] == table[i + 1];
      }
    }
  }

  /** Entries of codes the table does not mention are left as they were. */
  lemma {:induction false} LoadUntouched(reg: Registry, table: seq<Spec>, code: string)
    requires code !in Codes(table)
    ensures code in Load(reg, table) <==> code in reg
    ensures code in reg ==> Load(reg, table)[code] == reg[code]
    decreases |table|
  {
    if |table| > 0 {
      assert code != table[0].countryCode;
      forall i | 0 <= i < |table[1..]|
        ensures table[1..][i].countryCode != code
      {
        assert table[1..][i] == table[i + 1];
      }
      LoadUntouched(AddSpecification(reg, table[0]), table[1..], code);
    }
  }

  /** Loading a table in two parts is loading it at once. */
  lemma {:induction false} LoadAppend(reg: Registry, a: seq<Spec>, b: seq<Spec>)
    ensures Load(reg, a + b) == Load(Load(reg, a), b)
    decreases |a|
  {
    if |a| == 0 {
      assert a + b == b;
    } else {
      assert (a + b)[0] == a[0];
      assert (a + b)[1..] == a[1..] + b;
      LoadAppend(AddSpecification(reg, a[0]), a[1..], b);
    }
  }

  /** Whether no entry after position `i` of the table has the country code
      of entry `i`. */
  predicate LastOfItsCode(table: seq<Spec>, i: nat)
    requires i < |table|
  {
    forall j :: i < j < |table| ==> table[j].countryCode != table[i].countryCode
  }

  /** The entry that is the last of its code in a middle part of a table
      is the one a loaded registry holds for that code. */
  lemma {:induction false} LoadFind(reg: Registry, a: seq<Spec>, b: seq<Spec>, c: seq<Spec>, i: nat)
    requires i < |b| && LastOfItsCode(b, i) && b[i].countryCode !in Codes(c)
    ensures b[i].countryCode in Load(reg, a + b + c)
    ensures Load(reg, a + b + c)[b[i].countryCode] == b[i]
  {
    var code := b[i].countryCode;
    LoadAppend(reg, a + b, c);
    LoadAppend(reg, a, b);
    var mid := Load(reg, a);
    LoadAppend(mid, b[..i + 1], b[i + 1..]);
    assert b[..i + 1] + b[i + 1..] == b;
    LoadAppend(mid, b[..i], [b[i]]);
    assert b[..i] + [b[i]] == b[..i + 1];
    assert Load(Load(mid, b[..i]), [b[i]]) == AddSpecification(Load(mid, b[..i]), b[i]);
    assert code !in Codes(b[i + 1..]) by {
      var rest := b[i + 1..];
      forall j | 0 <= j < |rest|
        ensures rest[j].countryCode != code
      {
        assert rest[j] == b[i + 1 + j];
      }
    }
    LoadUntouched(Load(mid, b[..i + 1]), b[i + 1..], code);
    LoadUntouched(Load(reg, a + b), c, code);
  }

  /** Entries AD to BA (validate.cpp:120-125). */
  const Seed1: seq<Spec> := [
      Spec("AD", 24, "F04F04A12", "AD1200012030200359100100"),
      Spec("AE", 23, "F03F16", "AE070331234567890123456"),
      Spec("AL", 28, "F08A16", "AL47212110090000000235698741"),
      Spec("AT", 20, "F05F11", "AT611904300234573201"),
      Spec("AZ", 28, "U04A20", "AZ21NABZ00000000137010001944"),
      Spec("BA", 20, "F03F03F08F02", "BA391290079401028494")
    ]

  /** Entries BE to CR (validate.cpp:126-131). */
  const Seed2: seq<Spec> := [
      Spec("BE", 16, "F03F07F02", "BE68539007547034"),
      Spec("BG", 22, "U04F04F02A08", "BG80BNBG96611020345678"),
      Spec("BH", 22, "U04A14", "BH67BMAG00001299123456"),
      Spec("BR", 29, "F08F05F10U01A01", "BR9700360305000010009795493P1"),
      Spec("CH", 21, "F05A12", "CH9300762011623852957"),
      Spec("CR", 21, "F03F14", "CR0515202001026284066")
    ]

  /** Entries CY to EE (validate.cpp:132-137). */
  const Seed3: seq<Spec> := [
      Spec("CY", 28, "F03F05A16", "CY17002001280000001200527600"),
      Spec("CZ", 24, "F04F06F10", "CZ6508000000192000145399"),
      Spec("DE", 22, "F08F10", "DE89370400440532013000"),
      Spec("DK", 18, "F04F09F01", "DK5000400440116243"),
      Spec("DO", 28, "U04F20", "DO28BAGR00000001212453611324"),
      Spec("EE", 20, "F02F02F11F01", "EE382200221020145685")
    ]

  /** Entries ES to GE (validate.cpp:138-143). */
  const Seed4: seq<Spec> := [
      Spec("ES", 24, "F04F04F01F01F10", "ES9121000418450200051332"),
      Spec("FI", 18, "F06F07F01", "FI2112345600000785"),
      Spec("FO", 18, "F04F09F01", "FO6264600001631634"),
      Spec("FR", 27, "F05F05A11F02", "FR1420041010050500013M02606"),
      Spec("GB", 22, "U04F06F08", "GB29NWBK60161331926819"),
      Spec("GE", 22, "U02F16", "GE29NB0000000101904917")
    ]

  /** Entries GI to HU (validate.cpp:144-149). */
  const Seed5: seq<Spec> := [
      Spec("GI", 23, "U04A15", "GI75NWBK000000007099453"),
      Spec("GL", 18, "F04F09F01", "GL8964710001000206"),
      Spec("GR", 27, "F03F04A16", "GR1601101250000000012300695"),
      Spec("GT", 28, "A04A20", "GT82TRAJ01020000001210029690"),
      Spec("HR", 21, "F07F10", "HR1210010051863000160"),
      Spec("HU", 28, "F03F04F01F15F01", "HU42117730161111101800000000")
    ]

  /** Entries IE to KZ (validate.cpp:150-155). */
  const Seed6: seq<Spec> := [
      Spec("IE", 22, "U04F06F08", "IE29AIBK93115212345678"),
      Spec("IL", 23, "F03F03F13", "IL620108000000099999999"),
      Spec("IS", 26, "F04F02F06F10", "IS140159260076545510730339"),
      Spec("IT", 27, "U01F05F05A12", "IT60X0542811101000000123456"),
      Spec("KW", 30, "U04A22", "KW81CBKU0000000000001234560101"),
      Spec("KZ", 20, "F03A13", "KZ86125KZT5004100100")
    ]

  /** Entries LB to LV (validate.cpp:156-161). */
  const Seed7: seq<Spec> := [
      Spec("LB", 28, "F04A20", "LB62099900000001001901229114"),
      Spec("LC", 32, "U04F24", "LC07HEMM000100010012001200013015"),
      Spec("LI", 21, "F05A12", "LI21088100002324013AA"),
      Spec("LT", 20, "F05F11", "LT121000011101001000"),
      Spec("LU", 20, "F03A13", "LU280019400644750000"),
      Spec("LV", 21, "U04A13", "LV80BANK0000435195001")
    ]

  /** Entries MC to MT (validate.cpp:162-167). */
  const Seed8: seq<Spec> := [
      Spec("MC", 27, "F05F05A11F02", "MC5811222000010123456789030"),
      Spec("MD", 24, "U02A18", "MD24AG000225100013104168"),
      Spec("ME", 22, "F03F13F02", "ME25505000012345678951"),
      Spec("MK", 19, "F03A10F02", "MK07250120000058984"),
      Spec("MR", 27, "F05F05F11F02", "MR1300020001010000123456753"),
      Spec("MT", 31, "U04F05A18", "MT84MALT011000012345MTLCAST001S")
    ]

  /** Entries MU to PS (validate.cpp:168-173). */
  const Seed9: seq<Spec> := [
      Spec("MU", 30, "U04F02F02F12F03U03", "MU17BOMM0101101030300200000MUR"),
      Spec("NL", 18, "U04F10", "NL91ABNA0417164300"),
      Spec("NO", 15, "F04F06F01", "NO9386011117947"),
      Spec("PK", 24, "U04A16", "PK36SCBL0000001123456702"),
      Spec("PL", 28, "F08F16", "PL61109010140000071219812874"),
      Spec("PS", 29, "U04A21", "PS92PALS000000000400123456702")
    ]

  /** Entries PT to SI (validate.cpp:174-179). */
  const Seed10: seq<Spec> := [
      Spec("PT", 25, "F04F04F11F02", "PT50000201231234567890154"),
      Spec("RO", 24, "U04A16", "RO49AAAA1B31007593840000"),
      Spec("RS", 22, "F03F13F02", "RS35260005601001611379"),
      Spec("SA", 24, "F02A18", "SA0380000000608010167519"),
      Spec("SE", 24, "F03F16F01", "SE4550000000058398257466"),
      Spec("SI", 19, "F05F08F02", "SI56263300012039086")
    ]

  /** Entries SK to TR (validate.cpp:180-185). */
  const Seed11: seq<Spec> := [
      Spec("SK", 24, "F04F06F10", "SK3112000000198742637541"),
      Spec("SM", 27, "U01F05F05A12", "SM86U0322509800000000270100"),
      Spec("ST", 25, "F08F11F02", "ST68000100010051845310112"),
      Spec("TL", 23, "F03F14F02", "TL380080012345678910157"),
      Spec("TN", 24, "F02F03F13F02", "TN5910006035183598478831"),
      Spec("TR", 26, "F05F01A16", "TR330006100519786457841326")
    ]

  /** Entries VG to BJ (validate.cpp:186-196). */
  const Seed12: seq<Spec> := [
      Spec("VG", 24, "U04F16", "VG96VPVG0000012345678901"),
      Spec("XK", 20, "F04F10F02", "XK051212012345678906"),
      Spec("AO", 25, "F21", "AO69123456789012345678901"),
      Spec("BF", 27, "F23", "BF2312345678901234567890123"),
      Spec("BI", 16, "F12", "BI41123456789012"),
      Spec("BJ", 28, "F24", "BJ39123456789012345678901234")
    ]

  /** Entries CI to JO (validate.cpp:198-208). */
  const Seed13: seq<Spec> := [
      Spec("CI", 28, "U01F23", "CI17A12345678901234567890123"),
      Spec("CM", 27, "F23", "CM9012345678901234567890123"),
      Spec("CV", 25, "F21", "CV30123456789012345678901"),
      Spec("DZ", 24, "F20", "DZ8612345678901234567890"),
      Spec("IR", 26, "F22", "IR861234568790123456789012"),
      Spec("JO", 30, "A04F22", "JO15AAAA1234567890123456789012")
    ]

  /** Entries MG to UA (validate.cpp:210-220). */
  const Seed14: seq<Spec> := [
      Spec("MG", 27, "F23", "MG1812345678901234567890123"),
      Spec("ML", 28, "U01F23", "ML15A12345678901234567890123"),
      Spec("MZ", 25, "F21", "MZ25123456789012345678901"),
      Spec("QA", 29, "U04A21", "QA30AAAA123456789012345678901"),
      Spec("SN", 28, "U01F23", "SN52A12345678901234567890123"),
      Spec("UA", 29, "F25", "UA511234567890123456789012345")
    ]

  /** The specifications the `Validate` constructor adds, in order
      (validate.cpp:120-220). */
  const SeedTable: seq<Spec> := Seed1 + Seed2 + Seed3 + Seed4 + Seed5 + Seed6 + Seed7 + Seed8 + Seed9 + Seed10 + Seed11 + Seed12 + Seed13 + Seed14

  /** The registry a fresh `Validate` holds. */
  function SeedRegistry(): Registry
  {
    Load(map[], SeedTable)
  }

  /** A well-formed specification: a two-letter upper-case country code, a
      structure made of whole blocks that uses only the selectors A, F and
      U, an IBAN length of four (country code and check digits) plus the
      block lengths, and at least nine characters, enough for the number
      string of any IBAN of that length to fill the checksum's first window. */
  predicate WellFormedSpec(spec: Spec)
  {
    && |spec.countryCode| == 2 && IsUpper(spec.countryCode[0]) && IsUpper(spec.countryCode[1])
    && spec.length >= 9
    && |spec.structure| % 3 == 0
    && ParseStructure(spec.structure).Success?
    && spec.length == 4 + TotalLength(ParseStructure(spec.structure).value)
    && (forall k :: 0 <= k < |ParseStructure(spec.structure).value| ==>
          ParseStructure(spec.structure).value[k].selector in {'A', 'F', 'U'})
  }

  /** One left-to-right pass over a structure text from position `from`:
      whole blocks, each an A, F or U followed by two digits, whose lengths
      add up to `remaining`. */
  predicate ShapeFrom(structure: string, from: nat, remaining: int)
    decreases |structure| - from
  {
    if from >= |structure| then from == |structure| && remaining == 0
    else
      && from + 3 <= |structure|
      && (structure[from] == 'A' || structure[from] == 'F' || structure[from] == 'U')
      && IsDigit(structure[from + 1]) && IsDigit(structure[from + 2])
      && ShapeFrom(structure, from + 3, remaining - (DigitValue(structure[from + 1]) * 10 + DigitValue(structure[from + 2])))
  }

  /** The single-pass check of a table entry. */
  predicate ShapeChecked(spec: Spec)
  {
    && |spec.countryCode| == 2 && IsUpper(spec.countryCode[0]) && IsUpper(spec.countryCode[1])
    && spec.length >= 9
    && ShapeFrom(spec.structure, 0, spec.length - 4)
  }

  /** The single pass agrees with parsing the rest of the structure. */
  lemma {:induction false} ShapeParses(structure: string, from: nat, remaining: int)
    requires from <= |structure| && ShapeFrom(structure, from, remaining)
    ensures |structure[from..]| % 3 == 0
    ensures ParseStructure(structure[from..]).Success?
    ensures TotalLength(ParseStructure(structure[from..]).value) == remaining
    ensures forall k :: 0 <= k < |ParseStructure(structure[from..]).value| ==>
              ParseStructure(structure[from..]).value[k].selector in {'A', 'F', 'U'}
    decreases |structure| - from
  {
    var rest := structure[from..];
    if from < |structure| {
      var n := DigitValue(structure[from + 1]) * 10 + DigitValue(structure[from + 2]);
      ShapeParses(structure, from + 3, remaining - n);
      assert rest[..3] == structure[from..from + 3];
      assert rest[3..] == structure[from + 3..];
      var tail := ParseStructure(structure[from + 3..]).value;
      assert ParseBlock(rest[..3]) == Success(Block(structure[from], n));
      assert ParseStructure(rest).value == [Block(structure[from], n)] + tail;
    } else {
      assert rest == [];
    }
  }

  /** An entry that passes the single-pass check is well formed. */
  lemma ShapeCheckedWellFormed(spec: Spec)
    requires ShapeChecked(spec)
    ensures WellFormedSpec(spec)
  {
    ShapeParses(spec.structure, 0, spec.length - 4);
    assert spec.structure[0..] == spec.structure;
  }

  /** A group of six entries each of which passes `ShapeChecked` passes it as a whole. */
  lemma SixChecked(group: seq<Spec>)
    requires |group| == 6
    requires ShapeChecked(group[0]) && ShapeChecked(group[1]) && ShapeChecked(group[2])
    requires ShapeChecked(group[3]) && ShapeChecked(group[4]) && ShapeChecked(group[5])
    ensures forall i :: 0 <= i < |group| ==> ShapeChecked(group[i])
  {
  }

  // The checks of the table entries are split into the parts below only to
  // keep each proof small; the grouping of entries into parts carries no
  // meaning.

  lemma Seed1AChecked()
    ensures ShapeChecked(Seed1[0]) && ShapeChecked(Seed1[1]) && ShapeChecked(Seed1[2]) && ShapeChecked(Seed1[3])
  {
  }

  lemma Seed1BChecked()
    ensures ShapeChecked(Seed1[4]) && ShapeChecked(Seed1[5])
  {
  }

  lemma Seed1Checked()
    ensures forall i :: 0 <= i < |Seed1| ==> ShapeChecked(Seed1[i])
  {
    Seed1AChecked(); Seed1BChecked();
    SixChecked(Seed1);
  }

  lemma Seed2AChecked()
    ensures ShapeChecked(Seed2[0])
  {
  }

  lemma Seed2BChecked()
    ensures ShapeChecked(Seed2[1])
  {
  }

  lemma Seed2CChecked()
    ensures ShapeChecked(Seed2[2])
  {
  }

  lemma Seed2DChecked()
    ensures ShapeChecked(Seed2[3])
  {
  }

  lemma Seed2EChecked()
    ensures ShapeChecked(Seed2[4]) && ShapeChecked(Seed2[5])
  {
  }

  lemma Seed2Checked()
    ensures forall i :: 0 <= i < |Seed2| ==> ShapeChecked(Seed2[i])
  {
    Seed2AChecked(); Seed2BChecked(); Seed2CChecked(); Seed2DChecked(); Seed2EChecked();
    SixChecked(Seed2);
  }

  lemma Seed3AChecked()
    ensures ShapeChecked(Seed3[0]) && ShapeChecked(Seed3[1]) && ShapeChecked(Seed3[2]) && ShapeChecked(Seed3[3])
  {
  }

  lemma Seed3BChecked()
    ensures ShapeChecked(Seed3[4]) && ShapeChecked(Seed3[5])
  {
  }

  lemma Seed3Checked()
    ensures forall i :: 0 <= i < |Seed3| ==> ShapeChecked(Seed3[i])
  {
    Seed3AChecked(); Seed3BChecked();
    SixChecked(Seed3);
  }

  lemma Seed4AChecked()
    ensures ShapeChecked(Seed4[0])
  {
  }

  lemma Seed4BChecked()
    ensures ShapeChecked(Seed4[1]) && ShapeChecked(Seed4[2])
  {
  }

  lemma Seed4CChecked()
    ensures ShapeChecked(Seed4[3])
  {
  }

  lemma Seed4DChecked()
    ensures ShapeChecked(Seed4[4]) && ShapeChecked(Seed4[5])
  {
  }

  lemma Seed4Checked()
    ensures forall i :: 0 <= i < |Seed4| ==> ShapeChecked(Seed4[i])
  {
    Seed4AChecked(); Seed4BChecked(); Seed4CChecked(); Seed4DChecked();
    SixChecked(Seed4);
  }

  lemma Seed5AChecked()
    ensures ShapeChecked(Seed5[0]) && ShapeChecked(Seed5[1]) && ShapeChecked(Seed5[2])
  {
  }

  lemma Seed5BChecked()
    ensures ShapeChecked(Seed5[3]) && ShapeChecked(Seed5[4])
  {
  }

  lemma Seed5CChecked()
    ensures ShapeChecked(Seed5[5])
  {
  }

  lemma Seed5Checked()
    ensures forall i :: 0 <= i < |Seed5| ==> ShapeChecked(Seed5[i])
  {
    Seed5AChecked(); Seed5BChecked(); Seed5CChecked();
    SixChecked(Seed5);
  }

  lemma Seed6AChecked()
    ensures ShapeChecked(Seed6[0]) && ShapeChecked(Seed6[1])
  {
  }

  lemma Seed6BChecked()
    ensures ShapeChecked(Seed6[2])
  {
  }

  lemma Seed6CChecked()
    ensures ShapeChecked(Seed6[3]) && ShapeChecked(Seed6[4])
  {
  }

  lemma Seed6DChecked()
    ensures ShapeChecked(Seed6[5])
  {
  }

  lemma Seed6Checked()
    ensures forall i :: 0 <= i < |Seed6| ==> ShapeChecked(Seed6[i])
  {
    Seed6AChecked(); Seed6BChecked(); Seed6CChecked(); Seed6DChecked();
    SixChecked(Seed6);
  }

  lemma Seed7AChecked()
    ensures ShapeChecked(Seed7[0]) && ShapeChecked(Seed7[1]) && ShapeChecked(Seed7[2]) && ShapeChecked(Seed7[3]) && ShapeChecked(Seed7[4])
  {
  }

  lemma Seed7BChecked()
    ensures ShapeChecked(Seed7[5])
  {
  }

  lemma Seed7Checked()
    ensures forall i :: 0 <= i < |Seed7| ==> ShapeChecked(Seed7[i])
  {
    Seed7AChecked(); Seed7BChecked();
    SixChecked(Seed7);
  }

  lemma Seed8AChecked()
    ensures ShapeChecked(Seed8[0]) && ShapeChecked(Seed8[1])
  {
  }

  lemma Seed8BChecked()
    ensures ShapeChecked(Seed8[2]) && ShapeChecked(Seed8[3])
  {
  }

  lemma Seed8CChecked()
    ensures ShapeChecked(Seed8[4]) && ShapeChecked(Seed8[5])
  {
  }

  lemma Seed8Checked()
    ensures forall i :: 0 <= i < |Seed8| ==> ShapeChecked(Seed8[i])
  {
    Seed8AChecked(); Seed8BChecked(); Seed8CChecked();
    SixChecked(Seed8);
  }

  lemma Seed9AChecked()
    ensures ShapeChecked(Seed9[0])
  {
  }

  lemma Seed9BChecked()
    ensures ShapeChecked(Seed9[1]) && ShapeChecked(Seed9[2]) && ShapeChecked(Seed9[3])
  {
  }

  lemma Seed9CChecked()
    ensures ShapeChecked(Seed9[4]) && ShapeChecked(Seed9[5])
  {
  }

  lemma Seed9Checked()
    ensures forall i :: 0 <= i < |Seed9| ==> ShapeChecked(Seed9[i])
  {
    Seed9AChecked(); Seed9BChecked(); Seed9CChecked();
    SixChecked(Seed9);
  }

  lemma Seed10AChecked()
    ensures ShapeChecked(Seed10[0]) && ShapeChecked(Seed10[1])
  {
  }

  lemma Seed10BChecked()
    ensures ShapeChecked(Seed10[2]) && ShapeChecked(Seed10[3]) && ShapeChecked(Seed10[4])
  {
  }

  lemma Seed10CChecked()
    ensures ShapeChecked(Seed10[5])
  {
  }

  lemma Seed10Checked()
    ensures forall i :: 0 <= i < |Seed10| ==> ShapeChecked(Seed10[i])
  {
    Seed10AChecked(); Seed10BChecked(); Seed10CChecked();
    SixChecked(Seed10);
  }

  lemma Seed11AChecked()
    ensures ShapeChecked(Seed11[0])
  {
  }

  lemma Seed11BChecked()
    ensures ShapeChecked(Seed11[1])
  {
  }

  lemma Seed11CChecked()
    ensures ShapeChecked(Seed11[2]) && ShapeChecked(Seed11[3])
  {
  }

  lemma Seed11DChecked()
    ensures ShapeChecked(Seed11[4]) && ShapeChecked(Seed11[5])
  {
  }

  lemma Seed11Checked()
    ensures forall i :: 0 <= i < |Seed11| ==> ShapeChecked(Seed11[i])
  {
    Seed11AChecked(); Seed11BChecked(); Seed11CChecked(); Seed11DChecked();
    SixChecked(Seed11);
  }

  lemma Seed12AChecked()
    ensures ShapeChecked(Seed12[0]) && ShapeChecked(Seed12[1]) && ShapeChecked(Seed12[2]) && ShapeChecked(Seed12[3]) && ShapeChecked(Seed12[4])
  {
  }

  lemma Seed12BChecked()
    ensures ShapeChecked(Seed12[5])
  {
  }

  lemma Seed12Checked()
    ensures forall i :: 0 <= i < |Seed12| ==> ShapeChecked(Seed12[i])
  {
    Seed12AChecked(); Seed12BChecked();
    SixChecked(Seed12);
  }

  lemma Seed13AChecked()
    ensures ShapeChecked(Seed13[0]) && ShapeChecked(Seed13[1]) && ShapeChecked(Seed13[2]) && ShapeChecked(Seed13[3]) && ShapeChecked(Seed13[4])
  {
  }

  lemma Seed13BChecked()
    ensures ShapeChecked(Seed13[5])
  {
  }

  lemma Seed13Checked()
    ensures forall i :: 0 <= i < |Seed13| ==> ShapeChecked(Seed13[i])
  {
    Seed13AChecked(); Seed13BChecked();
    SixChecked(Seed13);
  }

  lemma Seed14AChecked()
    ensures ShapeChecked(Seed14[0]) && ShapeChecked(Seed14[1]) && ShapeChecked(Seed14[2]) && ShapeChecked(Seed14[3]) && ShapeChecked(Seed14[4])
  {
  }

  lemma Seed14BChecked()
    ensures ShapeChecked(Seed14[5])
  {
  }

  lemma Seed14Checked()
    ensures forall i :: 0 <= i < |Seed14| ==> ShapeChecked(Seed14[i])
  {
    Seed14AChecked(); Seed14BChecked();
    SixChecked(Seed14);
  }

  /** Every entry of the constructor's table is well formed. */
  lemma SeedTableWellFormed()
    ensures forall i :: 0 <= i < |SeedTable| ==> WellFormedSpec(SeedTable[i])
  {
    Seed1Checked(); Seed2Checked(); Seed3Checked(); Seed4Checked(); Seed5Checked();
    Seed6Checked(); Seed7Checked(); Seed8Checked(); Seed9Checked(); Seed10Checked();
    Seed11Checked(); Seed12Checked(); Seed13Checked(); Seed14Checked();
    forall i | 0 <= i < |SeedTable|
      ensures WellFormedSpec(SeedTable[i])
    {
      ShapeCheckedWellFormed(SeedTable[i]);
    }
  }

  /** Loading a group of entries none of which has `code` leaves the
      registry's entry for `code` as it was. */
  lemma LoadSkip(reg: Registry, prefix: seq<Spec>, group: seq<Spec>, code: string)
    requires code !in Codes(group)
    ensures code in Load(reg, prefix + group) <==> code in Load(reg, prefix)
    ensures code in Load(reg, prefix) ==> Load(reg, prefix + group)[code] == Load(reg, prefix)[code]
  {
    LoadAppend(reg, prefix, group);
    LoadUntouched(Load(reg, prefix), group, code);
  }

  /** Loading a group whose entry `i` is the last of its code leaves that
      entry in the registry. */
  lemma LoadLast(reg: Registry, prefix: seq<Spec>, group: seq<Spec>, i: nat)
    requires i < |group| && LastOfItsCode(group, i)
    ensures group[i].countryCode in Load(reg, prefix + group)
    ensures Load(reg, prefix + group)[group[i].countryCode] == group[i]
  {
    LoadFind(reg, prefix, group, [], i);
    assert prefix + group + [] == prefix + group;
  }

  /** GB occurs once in the constructor's table, as entry 4 of `Seed4`. */
  lemma GBOnce()
    ensures Seed4[4] == Spec("GB", 22, "U04F06F08", "GB29NWBK60161331926819") && LastOfItsCode(Seed4, 4)
    ensures "GB" !in Codes(Seed1) && "GB" !in Codes(Seed2) && "GB" !in Codes(Seed3)
    ensures forall j :: 0 <= j < 4 ==> Seed4[j].countryCode != "GB"
    ensures "GB" !in Codes(Seed5) && "GB" !in Codes(Seed6) && "GB" !in Codes(Seed7) && "GB" !in Codes(Seed8)
    ensures "GB" !in Codes(Seed9) && "GB" !in Codes(Seed10) && "GB" !in Codes(Seed11) && "GB" !in Codes(Seed12)
    ensures "GB" !in Codes(Seed13) && "GB" !in Codes(Seed14)
  {
  }

  /** The GB entry of a fresh `Validate` (validate.cpp:142). */
  lemma SeedHasGB()
    ensures "GB" in SeedRegistry()
    ensures SeedRegistry()["GB"] == Spec("GB", 22, "U04F06F08", "GB29NWBK60161331926819")
  {
    GBOnce();
    var p4 := Seed1 + Seed2 + Seed3 + Seed4;
    LoadLast(map[], Seed1 + Seed2 + Seed3, Seed4, 4);
    LoadSkip(map[], p4, Seed5, "GB");
    LoadSkip(map[], p4 + Seed5, Seed6, "GB");
    LoadSkip(map[], p4 + Seed5 + Seed6, Seed7, "GB");
    LoadSkip(map[], p4 + Seed5 + Seed6 + Seed7, Seed8, "GB");
    LoadSkip(map[], p4 + Seed5 + Seed6 + Seed7 + Seed8, Seed9, "GB");
    LoadSkip(map[], p4 + Seed5 + Seed6 + Seed7 + Seed8 + Seed9, Seed10, "GB");
    LoadSkip(map[], p4 + Seed5 + Seed6 + Seed7 + Seed8 + Seed9 + Seed10, Seed11, "GB");
    LoadSkip(map[], p4 + Seed5 + Seed6 + Seed7 + Seed8 + Seed9 + Seed10 + Seed11, Seed12, "GB");
    LoadSkip(map[], p4 + Seed5 + Seed6 + Seed7 + Seed8 + Seed9 + Seed10 + Seed11 + Seed12, Seed13, "GB");
    LoadSkip(map[], p4 + Seed5 + Seed6 + Seed7 + Seed8 + Seed9 + Seed10 + Seed11 + Seed12 + Seed13, Seed14, "GB");
  }

  /** DE occurs once in the constructor's table, as entry 2 of `Seed3`. */
  lemma DEOnce()
    ensures Seed3[2] == Spec("DE", 22, "F08F10", "DE89370400440532013000") && LastOfItsCode(Seed3, 2)
    ensures "DE" !in Codes(Seed1) && "DE" !in Codes(Seed2)
    ensures forall j :: 0 <= j < 2 ==> Seed3[j].countryCode != "DE"
    ensures "DE" !in Codes(Seed4) && "DE" !in Codes(Seed5) && "DE" !in Codes(Seed6) && "DE" !in Codes(Seed7)
    ensures "DE" !in Codes(Seed8) && "DE" !in Codes(Seed9) && "DE" !in Codes(Seed10) && "DE" !in Codes(Seed11)
    ensures "DE" !in Codes(Seed12) && "DE" !in Codes(Seed13) && "DE" !in Codes(Seed14)
  {
  }

  /** The DE entry of a fresh `Validate` (validate.cpp:134). */
  lemma SeedHasDE()
    ensures "DE" in SeedRegistry()
    ensures SeedRegistry()["DE"] == Spec("DE", 22, "F08F10", "DE89370400440532013000")
  {
    DEOnce();
    var p3 := Seed1 + Seed2 + Seed3;
    LoadLast(map[], Seed1 + Seed2, Seed3, 2);
    LoadSkip(map[], p3, Seed4, "DE");
    LoadSkip(map[], p3 + Seed4, Seed5, "DE");
    LoadSkip(map[], p3 + Seed4 + Seed5, Seed6, "DE");
    LoadSkip(map[], p3 + Seed4 + Seed5 + Seed6, Seed7, "DE");
    LoadSkip(map[], p3 + Seed4 + Seed5 + Seed6 + Seed7, Seed8, "DE");
    LoadSkip(map[], p3 + Seed4 + Seed5 + Seed6 + Seed7 + Seed8, Seed9, "DE");
    LoadSkip(map[], p3 + Seed4 + Seed5 + Seed6 + Seed7 + Seed8 + Seed9, Seed10, "DE");
    LoadSkip(map[], p3 + Seed4 + Seed5 + Seed6 + Seed7 + Seed8 + Seed9 + Seed10, Seed11, "DE");
    LoadSkip(map[], p3 + Seed4 + Seed5 + Seed6 + Seed7 + Seed8 + Seed9 + Seed10 + Seed11, Seed12, "DE");
    LoadSkip(map[], p3 + Seed4 + Seed5 + Seed6 + Seed7 + Seed8 + Seed9 + Seed10 + Seed11 + Seed12, Seed13, "DE");
    LoadSkip(map[], p3 + Seed4 + Seed5 + Seed6 + Seed7 + Seed8 + Seed9 + Seed10 + Seed11 + Seed12 + Seed13, Seed14, "DE");
  }

  /** A registry whose specifications are all well formed and filed under
      their own country codes. */
  predicate WellFormedRegistry(reg: Registry)
  {
    KeyedByCode(reg) && forall code :: code in reg ==> WellFormedSpec(reg[code])
  }

  /** A fresh `Validate` files every specification under its own country
      code, and every one of them is well formed. */
  lemma SeedRegistryWellFormed()
    ensures WellFormedRegistry(SeedRegistry())
  {
    LoadKeepsKeyed(map[], SeedTable);
    SeedTableWellFormed();
    forall code | code in SeedRegistry()
      ensures WellFormedSpec(SeedRegistry()[code])
    {
      LoadValues(map[], SeedTable, code);
    }
  }
}

=== FILE: scenarios.dfy ===
/** The two worked examples of the constructor's table, the British IBAN of
    validate.cpp:142 and the German one of validate.cpp:134, worked through
    the model: both are accepted, the British one in any mix of upper and
    lower case, and the British one with its check digits changed is
    rejected. */
module Scenarios {
  import opened Wrappers
  import opened Decimal
  import opened Checksum
  import opened Structure
  import opened Registry
  import opened Validator
  import opened Modular

  /** One more block in front of a parsed structure. */
  lemma ParseStep(s: string, sel: char, rest: seq<Block>)
    requires |s| >= 3 && s[0] == sel && IsDigit(s[1]) && IsDigit(s[2])
    requires ParseStructure(s[3..]) == Success(rest)
    ensures ParseStructure(s) == Success([Block(sel, DigitValue(s[1]) * 10 + DigitValue(s[2]))] + rest)
  {
    var t := s[..3];
    assert t[0] == sel && t[1] == s[1] && t[2] == s[2];
    assert ParseBlock(t) == Success(Block(sel, DigitValue(s[1]) * 10 + DigitValue(s[2])));
  }

  /** The number four upper-case letters expand to. */
  lemma LettersValue(w: string)
    requires |w| == 4 && IsUpper(w[0]) && IsUpper(w[1]) && IsUpper(w[2]) && IsUpper(w[3])
    ensures Value(Expand(w))
            == (((w[0] as int - 55) * 100 + (w[1] as int - 55)) * 100 + (w[2] as int - 55)) * 100 + (w[3] as int - 55)
  {
    ExpandFour(w);
    var a, b, c, d := ExpandChar(w[0]), ExpandChar(w[1]), ExpandChar(w[2]), ExpandChar(w[3]);
    assert Pow10(2) == 100;
    ValueAppend(a, b);
    ValueAppend(a + b, c);
    ValueAppend(a + b + c, d);
  }

  /** The number a country code and its two check digits expand to. */
  lemma HeadValue(h: string)
    requires |h| == 4 && IsUpper(h[0]) && IsUpper(h[1]) && IsDigit(h[2]) && IsDigit(h[3])
    ensures |Expand(h)| == 6
    ensures Value(Expand(h))
            == ((h[0] as int - 55) * 100 + (h[1] as int - 55)) * 100 + DigitValue(h[2]) * 10 + DigitValue(h[3])
  {
    ExpandFour(h);
    var a, b, c, d := ExpandChar(h[0]), ExpandChar(h[1]), ExpandChar(h[2]), ExpandChar(h[3]);
    ValueOfTwo(c + d);
    assert Pow10(2) == 100;
    ValueAppend(a, b);
    ValueAppend(a + b, c + d);
    assert a + b + c + d == a + b + (c + d);
  }

  /** The number a rotated IBAN expands to: its BBAN's number followed by
      the six digits of its country code and check digits. */
  lemma RotatedValue(g: string)
    requires |g| >= 4 && IsUpper(g[0]) && IsUpper(g[1]) && IsDigit(g[2]) && IsDigit(g[3])
    ensures Value(Expand(Rotate(g))) == Value(Expand(g[4..])) * 1000000 + Value(Expand(g[..4]))
  {
    HeadValue(g[..4]);
    ExpandValueAppend(g[4..], g[..4]);
    assert Pow10(6) == 1000000;
  }

  /** The digits of a 14-digit text, in four chunks. */
  lemma FourteenDigitsValue(m: string)
    requires |m| == 14 && AllDigits(m)
    ensures Value(m) == ((Value(m[..4]) * 10000 + Value(m[4..8])) * 10000 + Value(m[8..12])) * 100 + Value(m[12..])
  {
    var a, b, c, d := m[..4], m[4..8], m[8..12], m[12..];
    assert m == a + b + c + d;
    assert Pow10(4) == 10000 && Pow10(2) == 100;
    ValueAppend(a, b);
    ValueAppend(a + b, c);
    ValueAppend(a + b + c, d);
  }

  /** The digits of an 18-digit text, in five chunks. */
  lemma EighteenDigitsValue(m: string)
    requires |m| == 18 && AllDigits(m)
    ensures Value(m)
            == (((Value(m[..4]) * 10000 + Value(m[4..8])) * 10000 + Value(m[8..12])) * 10000 + Value(m[12..16])) * 100
               + Value(m[16..])
  {
    var a, b, c, d, e := m[..4], m[4..8], m[8..12], m[12..16], m[16..];
    assert m == a + b + c + d + e;
    assert Pow10(4) == 10000 && Pow10(2) == 100;
    ValueAppend(a, b);
    ValueAppend(a + b, c);
    ValueAppend(a + b + c, d);
    ValueAppend(a + b + c + d, e);
  }

  /** Two check digits added to a number that leaves `r` modulo 97 leave 1
      for exactly one choice of the pair. */
  lemma CheckPair(r: nat, x: nat)
    requires r < 97 && x < 100
    ensures (r + x) % 97 == 1 <==> r + x == 1 || r + x == 98 || r + x == 195
  {
    if r + x >= 194 {
      assert (r + x) % 97 == r + x - 194;
    } else if r + x >= 97 {
      assert (r + x) % 97 == r + x - 97;
    }
  }

  // The lemmas below about a single literal take it as a parameter pinned by
  // their `requires`, rather than naming it in their contract. The pinned
  // parameter only keeps the verifier from unrolling the recursive
  // functions over the literal.

  /** The British structure `U04F06F08` parses to four letters, six digits
      and eight digits. */
  lemma GBStructure(s: string)
    requires s == "U04F06F08"
    ensures ParseStructure(s) == Success([Block('U', 4), Block('F', 6), Block('F', 8)])
  {
    var r1 := [Block('F', 8)];
    var r2 := [Block('F', 6)] + r1;
    assert ParseStructure(s[9..]) == Success([]);
    assert s[6..][3..] == s[9..] && s[3..][3..] == s[6..];
    ParseStep(s[6..], 'F', []);
    assert [Block('F', 8)] + [] == r1;
    ParseStep(s[3..], 'F', r1);
    ParseStep(s, 'U', r2);
    assert [Block('U', 4)] + r2 == [Block('U', 4), Block('F', 6), Block('F', 8)];
  }

  /** The British example's BBAN fits its structure. */
  lemma GBBbanMatches(b: string)
    requires b == "NWBK60161331926819"
    ensures Matches(b, [Block('U', 4), Block('F', 6), Block('F', 8)])
  {
    forall i | 0 <= i < 4
      ensures Admits('U', b[i])
    {
      SelectorClasses('U', b[i]);
    }
    forall i | 4 <= i < 18
      ensures Admits('F', b[i])
    {
      SelectorClasses('F', b[i]);
    }
    assert Matches(b[10..], [Block('F', 8)]) by {
      assert b[10..][8..] == [];
    }
    assert b[4..][6..] == b[10..];
  }

  /** The number the account digits of the British example denote. */
  lemma GBAccountValue(m: string)
    requires m == "60161331926819"
    ensures AllDigits(m) && Value(m) == 60161331926819
  {
    var a, b, c, d := m[..4], m[4..8], m[8..12], m[12..];
    assert a == "6016" && b == "1331" && c == "9268" && d == "19";
    ValueOfFour(a);
    ValueOfFour(b);
    ValueOfFour(c);
    ValueOfTwo(d);
    FourteenDigitsValue(m);
  }

  /** The British bank code NWBK expands to 23 32 11 20. */
  lemma GBBankValue(w: string)
    requires w == "NWBK"
    ensures |Expand(w)| == 8 && Value(Expand(w)) == 23321120
  {
    LettersValue(w);
    ExpandLength(w);
  }

  /** Fourteen decimal places, the length of the British account number. */
  lemma Pow10Of14()
    ensures Pow10(14) == 100000000000000
  {
    Pow10Add(4, 4);
    Pow10Add(8, 4);
    Pow10Add(12, 2);
    assert Pow10(4) == 10000 && Pow10(2) == 100;
  }

  /** The number the British BBAN expands to: its bank code's letters
      followed by its account digits. */
  lemma GBBbanValue(w: string, m: string)
    requires w == "NWBK" && m == "60161331926819"
    ensures |Expand(w + m)| == 22
    ensures Value(Expand(w + m)) == 2332112060161331926819
  {
    GBBankValue(w);
    GBAccountValue(m);
    ExpandDigits(m);
    ExpandConcat(w, m);
    ExpandValueAppend(w, m);
    Pow10Of14();
  }

  /** The number a British IBAN with the example's BBAN expands to: the
      BBAN's number, then G and B as 16 and 11, then the check digits. */
  lemma GBNumberValue(g: string)
    requires |g| == 22 && g[..2] == "GB" && IsDigit(g[2]) && IsDigit(g[3]) && g[4..] == "NWBK60161331926819"
    ensures |Expand(Rotate(g))| == 28
    ensures Value(Expand(Rotate(g))) == 2332112060161331926819161100 + DigitValue(g[2]) * 10 + DigitValue(g[3])
  {
    var h, b := g[..4], g[4..];
    assert h[0] == 'G' && h[1] == 'B' && h[2] == g[2] && h[3] == g[3];
    HeadValue(h);
    assert b == b[..4] + b[4..] && b[..4] == "NWBK" && b[4..] == "60161331926819";
    GBBbanValue(b[..4], b[4..]);
    RotatedValue(g);
    ExpandConcat(b, h);
  }

  /** 29 is the one pair of check digits that completes the British
      example's BBAN to a number string leaving 1 modulo 97. */
  lemma GBNumber(g: string)
    requires |g| == 22 && g[..2] == "GB" && IsDigit(g[2]) && IsDigit(g[3]) && g[4..] == "NWBK60161331926819"
    ensures |Expand(Rotate(g))| >= 9
    ensures ChecksumHolds(g) <==> DigitValue(g[2]) * 10 + DigitValue(g[3]) == 29
  {
    var x := DigitValue(g[2]) * 10 + DigitValue(g[3]);
    GBNumberValue(g);
    var q := 24042392372797236358960423;
    assert Value(Expand(Rotate(g))) == 97 * q + (69 + x);
    ModAddMultiple(q, 69 + x);
    CheckPair(69, x);
  }

  /** A fresh `Validate` accepts a British IBAN with the example's BBAN
      exactly when its check digits are 29, and never throws for it. */
  lemma GBVerdict(g: string)
    requires |g| == 22 && g[..2] == "GB" && IsDigit(g[2]) && IsDigit(g[3]) && g[4..] == "NWBK60161331926819"
    ensures IsValid(SeedRegistry(), g) <==> DigitValue(g[2]) * 10 + DigitValue(g[3]) == 29
    ensures IsValidAsWritten(SeedRegistry(), g) == Success(IsValid(SeedRegistry(), g))
  {
    var reg := SeedRegistry();
    assert forall i :: 0 <= i < |g| ==> !('a' <= g[i] <= 'z') by {
      assert forall i :: 4 <= i < |g| ==> g[i] == g[4..][i - 4];
    }
    UpperUnchanged(g);
    SeedHasGB();
    assert CountryCode(g) == "GB";
    GBStructure("U04F06F08");
    GBBbanMatches(g[4..]);
    GBNumber(g);
    Iso7064Mod97_10Correct(g);
    CorrectedAgrees(reg, g);
  }

  /** The German structure `F08F10` parses to eight digits and ten digits. */
  lemma DEStructure(s: string)
    requires s == "F08F10"
    ensures ParseStructure(s) == Success([Block('F', 8), Block('F', 10)])
  {
    var r1 := [Block('F', 10)];
    assert ParseStructure(s[6..]) == Success([]);
    assert s[3..][3..] == s[6..];
    ParseStep(s[3..], 'F', []);
    assert [Block('F', 10)] + [] == r1;
    ParseStep(s, 'F', r1);
    assert [Block('F', 8)] + r1 == [Block('F', 8), Block('F', 10)];
  }

  /** The German example's BBAN fits its structure. */
  lemma DEBbanMatches(b: string)
    requires b == "370400440532013000"
    ensures Matches(b, [Block('F', 8), Block('F', 10)])
  {
    forall i | 0 <= i < 18
      ensures Admits('F', b[i])
    {
      SelectorClasses('F', b[i]);
    }
    assert Matches(b[8..], [Block('F', 10)]) by {
      assert b[8..][10..] == [];
    }
  }

  /** The number the BBAN digits of the German example denote. */
  lemma DEBbanValue(m: string)
    requires m == "370400440532013000"
    ensures AllDigits(m) && Value(m) == 370400440532013000
  {
    var a, b, c, d, e := m[..4], m[4..8], m[8..12], m[12..16], m[16..];
    assert a == "3704" && b == "0044" && c == "0532" && d == "0130" && e == "00";
    ValueOfFour(a);
    ValueOfFour(b);
    ValueOfFour(c);
    ValueOfFour(d);
    ValueOfTwo(e);
    EighteenDigitsValue(m);
  }

  /** The number a German IBAN with the example's BBAN expands to: the
      BBAN, then D and E as 13 and 14, then the check digits. */
  lemma DENumberValue(g: string)
    requires |g| == 22 && g[..2] == "DE" && IsDigit(g[2]) && IsDigit(g[3]) && g[4..] == "370400440532013000"
    ensures |Expand(Rotate(g))| == 24
    ensures Value(Expand(Rotate(g))) == 370400440532013000131400 + DigitValue(g[2]) * 10 + DigitValue(g[3])
  {
    var h, b := g[..4], g[4..];
    assert h[0] == 'D' && h[1] == 'E' && h[2] == g[2] && h[3] == g[3];
    HeadValue(h);
    DEBbanValue(b);
    ExpandDigits(b);
    RotatedValue(g);
    ExpandConcat(b, h);
  }

  /** 89 is the one pair of check digits that completes the German
      example's BBAN to a number string leaving 1 modulo 97. */
  lemma DENumber(g: string)
    requires |g| == 22 && g[..2] == "DE" && IsDigit(g[2]) && IsDigit(g[3]) && g[4..] == "370400440532013000"
    ensures |Expand(Rotate(g))| >= 9
    ensures ChecksumHolds(g) <==> DigitValue(g[2]) * 10 + DigitValue(g[3]) == 89
  {
    var x := DigitValue(g[2]) * 10 + DigitValue(g[3]);
    DENumberValue(g);
    var q := 3818561242598072166303;
    assert Value(Expand(Rotate(g))) == 97 * q + (9 + x);
    ModAddMultiple(q, 9 + x);
    CheckPair(9, x);
  }

  /** A fresh `Validate` accepts a German IBAN with the example's BBAN
      exactly when its check digits are 89, and never throws for it. */
  lemma DEVerdict(g: string)
    requires |g| == 22 && g[..2] == "DE" && IsDigit(g[2]) && IsDigit(g[3]) && g[4..] == "370400440532013000"
    ensures IsValid(SeedRegistry(), g) <==> DigitValue(g[2]) * 10 + DigitValue(g[3]) == 89
    ensures IsValidAsWritten(SeedRegistry(), g) == Success(IsValid(SeedRegistry(), g))
  {
    var reg := SeedRegistry();
    assert forall i :: 0 <= i < |g| ==> !('a' <= g[i] <= 'z') by {
      assert forall i :: 4 <= i < |g| ==> g[i] == g[4..][i - 4];
    }
    UpperUnchanged(g);
    SeedHasDE();
    assert CountryCode(g) == "DE";
    DEStructure("F08F10");
    DEBbanMatches(g[4..]);
    DENumber(g);
    Iso7064Mod97_10Correct(g);
    CorrectedAgrees(reg, g);
  }

  /* The examples below are written as country code, check digits and
     BBAN, the three fields `isValid` looks at. */

  /** The British example of validate.cpp:142 is valid. */
  lemma GBExampleValid()
    ensures IsValid(SeedRegistry(), "GB" + "29" + "NWBK60161331926819")
    ensures IsValidAsWritten(SeedRegistry(), "GB" + "29" + "NWBK60161331926819") == Success(true)
  {
    GBVerdict("GB" + "29" + "NWBK60161331926819");
  }

  /** The German example of validate.cpp:134 is valid. */
  lemma DEExampleValid()
    ensures IsValid(SeedRegistry(), "DE" + "89" + "370400440532013000")
    ensures IsValidAsWritten(SeedRegistry(), "DE" + "89" + "370400440532013000") == Success(true)
  {
    DEVerdict("DE" + "89" + "370400440532013000");
  }

  /** Changing the British example's check digits from 29 to 28 makes it
      invalid. */
  lemma GBWrongCheckDigits()
    ensures !IsValid(SeedRegistry(), "GB" + "28" + "NWBK60161331926819")
    ensures IsValidAsWritten(SeedRegistry(), "GB" + "28" + "NWBK60161331926819") == Success(false)
  {
    GBVerdict("GB" + "28" + "NWBK60161331926819");
  }

  /** A fresh `Validate` given just the country code "GB": the source cuts
      the BBAN off with `substr(4)` before comparing lengths, which throws
      `std::out_of_range`; the corrected `isValid` answers false. */
  lemma GBCodeAloneThrows()
    ensures IsValidAsWritten(SeedRegistry(), "GB") == Failure(OutOfRange)
    ensures !IsValid(SeedRegistry(), "GB")
  {
    SeedHasGB();
    assert Upper("GB") == "GB";
    assert CountryCode("GB") == "GB";
  }

  /** Any input that upper-cases to the British example, such as
      `gb29nwbk60161331926819`, is accepted too, because `isValid` upper-cases
      its argument before every check (validate.cpp:101). */
  lemma GBAnyCaseValid(s: string)
    requires Upper(s) == "GB" + "29" + "NWBK60161331926819"
    ensures IsValidAsWritten(SeedRegistry(), s) == Success(true)
    ensures IsValid(SeedRegistry(), s)
  {
    GBExampleValid();
    UpperSameVerdict(SeedRegistry(), s);
    CorrectedAgrees(SeedRegistry(), s);
  }
}

=== FILE: structure.dfy ===
/** The BBAN structure strings of the registry and what `parseStructure`
    (iban_validator/validate.cpp:58-89) makes of them: a list of blocks, each
    a selector letter and a two-digit length, compiled into an anchored
    pattern with one `[class]{n}` segment per block. The pattern is modelled
    by the strings it accepts, not by a regular-expression engine. */
module Structure {
  import opened Wrappers
  import opened Decimal

  /** One 3-character block: the selector letter and the number of
      characters the group it describes must have. */
  datatype Block = Block(selector: char, count: nat)

  /** The bracket expression the `switch` at validate.cpp:72-80 writes for a
      selector; with no `default` branch, any other selector leaves it empty. */
  function Format(selector: char): string
  {
    match selector
    case 'A' => "0-9A-ZA-Z"
    case 'B' => "0-9A-Z"
    case 'C' => "A-ZA-Z"
    case 'F' => "0-9"
    case 'L' => "A-Z"
    case 'U' => "A-Z"
    case 'W' => "0-9A-Z"
    case _ => ""
  }

  /** Whether `c` lies in one of the `x-y` ranges of a bracket expression. */
  predicate InRanges(ranges: string, c: char)
    decreases |ranges|
  {
    |ranges| >= 3 && ((ranges[0] <= c <= ranges[2]) || InRanges(ranges[3..], c))
  }

  /** Whether the segment compiled for `selector` admits the character `c`. */
  predicate Admits(selector: char, c: char)
  {
    InRanges(Format(selector), c)
  }

  /** The character classes the selectors stand for: F digits; A, B and W
      digits or upper-case letters (A names `A-Z` twice, so it admits no
      lower-case letter); C, L and U upper-case letters; any other selector
      compiles to the empty class `[]`, which admits nothing. */
  lemma SelectorClasses(selector: char, c: char)
    ensures selector == 'F' ==> (Admits(selector, c) <==> IsDigit(c))
    ensures selector in {'A', 'B', 'W'} ==> (Admits(selector, c) <==> IsDigit(c) || IsUpper(c))
    ensures selector in {'C', 'L', 'U'} ==> (Admits(selector, c) <==> IsUpper(c))
    ensures selector !in {'A', 'B', 'C', 'F', 'L', 'U', 'W'} ==> !Admits(selector, c)
  {
    match selector
    case 'A' =>
      assert Format('A')[3..] == "A-ZA-Z" && "A-ZA-Z"[3..] == "A-Z" && "A-Z"[3..] == [];
    case 'B' =>
      assert Format('B')[3..] == "A-Z" && "A-Z"[3..] == [];
    case 'C' =>
      assert Format('C')[3..] == "A-Z" && "A-Z"[3..] == [];
    case 'F' =>
      assert Format('F')[3..] == [];
    case 'L' =>
      assert Format('L')[3..] == [];
    case 'U' =>
      assert Format('U')[3..] == [];
    case 'W' =>
      assert Format('W')[3..] == "A-Z" && "A-Z"[3..] == [];
    case _ =>
  }

  /** `std::stoi` of the two characters after the selector, for the texts
      it reads completely: two decimal digits. Any other text is reported as
      `std::invalid_argument`. The source reads some of those as numbers
      (` 5`, `+5`, `5x`), and for a signed count such as `-5` the regex
      constructor later throws `std::regex_error`. */
  function ParseBlock(text: string): (r: Result<Block, StdException>)
    requires |text| == 3
    ensures r.Success? <==> AllDigits(text[1..])
    ensures r.Success? ==> r.value.selector == text[0] && r.value.count == Value(text[1..]) && r.value.count < 100
    ensures r.Failure? ==> r.error == InvalidArgument
  {
    if IsDigit(text[1]) && IsDigit(text[2]) then
      ValueOfTwo(text[1..]);
      Success(Block(text[0], DigitValue(text[1]) * 10 + DigitValue(text[2])))
    else Failure(InvalidArgument)
  }

  /** `parseStructure`'s loop (validate.cpp:64-85): consecutive 3-character
      blocks, left to right; one or two trailing characters match no block
      and are ignored. */
  function ParseStructure(structure: string): (r: Result<seq<Block>, StdException>)
    ensures r.Success? ==> |r.value| == |structure| / 3
    ensures r.Success? ==> forall k :: 0 <= k < |r.value| ==> r.value[k].count < 100
    decreases |structure|
  {
    if |structure| < 3 then Success([])
    else
      match ParseBlock(structure[..3])
      case Failure(e) => Failure(e)
      case Success(b) =>
        match ParseStructure(structure[3..])
        case Failure(e) => Failure(e)
        case Success(bs) => Success([b] + bs)
  }

  /** The number of characters a string matching the blocks has. */
  function TotalLength(blocks: seq<Block>): nat
  {
    if |blocks| == 0 then 0 else blocks[0].count + TotalLength(blocks[1..])
  }

  /** What the anchored pattern `^([..]{n1})([..]{n2})...$` of validate.cpp:82-87
      accepts: the string splits into consecutive groups, the k-th exactly
      `count` characters long and made of characters its selector admits,
      with nothing before the first group or after the last. */
  predicate Matches(s: string, blocks: seq<Block>)
    decreases |blocks|
  {
    if |blocks| == 0 then |s| == 0
    else
      var n := blocks[0].count;
      && n <= |s|
      && (forall i :: 0 <= i < n ==> Admits(blocks[0].selector, s[i]))
      && Matches(s[n..], blocks[1..])
  }

  /** The selector governing position `i` of a string laid out by `blocks`. */
  function SelectorAt(blocks: seq<Block>, i: nat): char
    requires i < TotalLength(blocks)
    decreases |blocks|
  {
    if i < blocks[0].count then blocks[0].selector
    else SelectorAt(blocks[1..], i - blocks[0].count)
  }

  /** The selector governing a position is the selector of one of the blocks. */
  lemma {:induction false} SelectorAtIsBlock(blocks: seq<Block>, i: nat)
    requires i < TotalLength(blocks)
    ensures exists k :: 0 <= k < |blocks| && blocks[k].selector == SelectorAt(blocks, i)
    decreases |blocks|
  {
    if i >= blocks[0].count {
      SelectorAtIsBlock(blocks[1..], i - blocks[0].count);
      var k :| 0 <= k < |blocks[1..]| && blocks[1..][k].selector == SelectorAt(blocks[1..], i - blocks[0].count);
      assert blocks[k + 1] == blocks[1..][k];
    } else {
      assert blocks[0].selector == SelectorAt(blocks, i);
    }
  }

  /** Position by position: a string matches exactly when its length is the
      sum of the block lengths and each character is admitted by the block
      covering its position. */
  predicate MatchesAt(s: string, blocks: seq<Block>)
  {
    |s| == TotalLength(blocks) && forall i :: 0 <= i < |s| ==> Admits(SelectorAt(blocks, i), s[i])
  }

  /** The group-by-group and the position-by-position readings of the
      pattern agree. */
  lemma {:induction false} MatchesIffPositional(s: string, blocks: seq<Block>)
    ensures Matches(s, blocks) <==> MatchesAt(s, blocks)
    decreases |blocks|
  {
    if |blocks| > 0 {
      var n := blocks[0].count;
      if n <= |s| {
        var tail := s[n..];
        MatchesIffPositional(tail, blocks[1..]);
        if MatchesAt(s, blocks) {
          forall j | 0 <= j < |tail|
            ensures Admits(SelectorAt(blocks[1..], j), tail[j])
          {
            assert Admits(SelectorAt(blocks, n + j), s[n + j]);
          }
          assert forall i :: 0 <= i < n ==> Admits(SelectorAt(blocks, i), s[i]);
        }
        if Matches(s, blocks) {
          forall i | 0 <= i < |s|
            ensures Admits(SelectorAt(blocks, i), s[i])
          {
            if i >= n {
              assert s[i] == tail[i - n];
            }
          }
        }
      } else {
        assert TotalLength(blocks) >= n;
      }
    }
  }

  /** A matching string is exactly as long as the blocks say. */
  lemma MatchLength(s: string, blocks: seq<Block>)
    requires Matches(s, blocks)
    ensures |s| == TotalLength(blocks)
  {
    MatchesIffPositional(s, blocks);
  }

  /** The structure text of a block list, each block written as its selector
      followed by its length in two digits. */
  function Render(blocks: seq<Block>): (text: string)
    requires forall k :: 0 <= k < |blocks| ==> blocks[k].count < 100
    ensures |text| == 3 * |blocks|
  {
    if |blocks| == 0 then []
    else [blocks[0].selector] + TwoDigits(blocks[0].count) + Render(blocks[1..])
  }

  /** A two-digit text is the two-digit rendering of its own value. */
  lemma TwoDigitsOfValue(t: string)
    requires |t| == 2 && AllDigits(t)
    ensures Value(t) < 100 && TwoDigits(Value(t)) == t
  {
    var hi, lo := DigitValue(t[0]), DigitValue(t[1]);
    var n := Value(t);
    ValueOfTwo(t);
    assert DigitChar(hi) == t[0] && DigitChar(lo) == t[1];
    if hi == 0 {
      assert TwoDigits(n) == "0" + [DigitChar(lo)];
    } else {
      assert n / 10 == hi && n % 10 == lo;
      assert ToDecimal(n) == [DigitChar(hi)] + [DigitChar(lo)];
    }
  }

  /** Parsing a rendered block list gives the list back. */
  lemma {:induction false} ParseRender(blocks: seq<Block>)
    requires forall k :: 0 <= k < |blocks| ==> blocks[k].count < 100
    ensures ParseStructure(Render(blocks)) == Success(blocks)
  {
    if |blocks| > 0 {
      var text := Render(blocks);
      var b := blocks[0];
      var digits := TwoDigits(b.count);
      assert text[..3] == [b.selector] + digits;
      assert text[..3][1..] == digits;
      assert text[3..] == Render(blocks[1..]);
      ParseRender(blocks[1..]);
      assert blocks == [b] + blocks[1..];
    }
  }

  /** Rendering a parsed structure gives back its text without the trailing
      characters that form no block. */
  lemma {:induction false} RenderParse(structure: string)
    requires ParseStructure(structure).Success?
    ensures Render(ParseStructure(structure).value) == structure[..|structure| - |structure| % 3]
    decreases |structure|
  {
    if |structure| >= 3 {
      var head := structure[..3];
      var b := ParseBlock(head).value;
      RenderParse(structure[3..]);
      TwoDigitsOfValue(head[1..]);
      var rest := structure[3..];
      assert |structure| % 3 == |rest| % 3;
      assert structure[..|structure| - |structure| % 3] == head + rest[..|rest| - |rest| % 3];
      assert head == [b.selector] + head[1..];
    }
  }
}

=== FILE: validator.dfy ===
/** `Validate::isValid` (iban_validator/validate.cpp:96-116) as one call on a
    fresh `Validate` whose registry is given: upper-case the input, look up
    the specification of its first two characters, then require the length,
    the country code, the BBAN structure and the MOD 97-10 checksum. */
module Validator {
  import opened Wrappers
  import opened Decimal
  import opened Checksum
  import opened Structure
  import opened Registry

  /** `toupper` in the "C" locale: only the ASCII letters a-z change. */
  function ToUpper(c: char): char
  {
    if 'a' <= c <= 'z' then (c as int - 'a' as int + 'A' as int) as char else c
  }

  /** The `std::transform` with `toupper` at validate.cpp:101. */
  function Upper(s: string): (u: string)
    ensures |u| == |s|
    ensures forall i :: 0 <= i < |s| ==> u[i] == ToUpper(s[i])
  {
    if |s| == 0 then [] else [ToUpper(s[0])] + Upper(s[1..])
  }

  /** Upper-casing twice changes nothing more. */
  lemma UpperIdempotent(s: string)
    ensures Upper(Upper(s)) == Upper(s)
  {
    assert forall i :: 0 <= i < |s| ==> ToUpper(ToUpper(s[i])) == ToUpper(s[i]);
  }

  /** Upper-casing leaves a text unchanged exactly when it has no lower-case
      ASCII letter. */
  lemma UpperUnchanged(s: string)
    ensures Upper(s) == s <==> forall i :: 0 <= i < |s| ==> !('a' <= s[i] <= 'z')
  {
    if Upper(s) == s {
      forall i | 0 <= i < |s|
        ensures !('a' <= s[i] <= 'z')
      {
        assert Upper(s)[i] == ToUpper(s[i]);
      }
    }
  }

  /** `substr(0, 2)`: the first two characters, or all of a shorter text. */
  function CountryCode(s: string): (code: string)
    ensures code <= s
    ensures |code| == if |s| < 2 then |s| else 2
  {
    if |s| >= 2 then s[..2] else s
  }

  /** `isValid` as the source writes it. A known country code with an input
      shorter than four characters makes `substr(4, ...)` at line 107 throw
      `std::out_of_range` before the length is compared; a structure the
      registry holds that does not parse, or a number string shorter than
      nine digits, makes the calls it reaches throw too. */
  function IsValidAsWritten(reg: Registry, input: string): Result<bool, StdException>
  {
    var u := Upper(input);
    var code := CountryCode(u);
    if code !in reg then Success(false)
    else if |u| < 4 then Failure(OutOfRange)
    else
      var spec := reg[code];
      if spec.length != |u| || spec.countryCode != code then Success(false)
      else
        match ParseStructure(spec.structure)
        case Failure(e) => Failure(e)
        case Success(blocks) =>
          if !Matches(u[4..], blocks) then Success(false)
          else Iso7064Mod97_10(u)
  }

  /** `isValid` with the length guarded before the BBAN is cut off: an
      input too short to carry a country code and check digits is simply
      not valid, and so is one whose checks cannot be carried out. */
  function IsValid(reg: Registry, input: string): bool
  {
    var u := Upper(input);
    var code := CountryCode(u);
    && code in reg
    && |u| >= 4
    && reg[code].length == |u|
    && reg[code].countryCode == code
    && match ParseStructure(reg[code].structure)
       case Failure(_) => false
       case Success(blocks) => Matches(u[4..], blocks) && Iso7064Mod97_10(u) == Success(true)
  }

  /** The corrected function accepts exactly what the as-written one accepts,
      and differs from it only where that one throws; it throws
      `std::out_of_range` exactly for a short input with a known code. */
  lemma CorrectedAgrees(reg: Registry, input: string)
    ensures IsValid(reg, input) <==> IsValidAsWritten(reg, input) == Success(true)
    ensures IsValidAsWritten(reg, input).Success? ==> IsValidAsWritten(reg, input).value == IsValid(reg, input)
    ensures IsValidAsWritten(reg, input) == Failure(OutOfRange) && |input| < 4
            <==> CountryCode(Upper(input)) in reg && |input| < 4
    ensures |input| < 4 ==> !IsValid(reg, input)
  {
  }

  /** The four checks of validate.cpp:108-111 on the upper-cased input,
      stated without the windowed loop and the pattern: a corrected `isValid`
      accepts exactly when the input is at least four characters long, its
      country code is registered under a specification of the input's length
      and that code, the specification's structure parses, the BBAN fits the
      blocks position by position, and the whole number string is at least
      nine digits and 1 modulo 97. */
  predicate Accepted(reg: Registry, input: string)
  {
    var u := Upper(input);
    var code := CountryCode(u);
    && |u| >= 4
    && code in reg
    && reg[code].length == |u|
    && reg[code].countryCode == code
    && ParseStructure(reg[code].structure).Success?
    && MatchesAt(u[4..], ParseStructure(reg[code].structure).value)
    && |Expand(Rotate(u))| >= 9
    && ChecksumHolds(u)
  }

  lemma IsValidCharacterized(reg: Registry, input: string)
    ensures IsValid(reg, input) <==> Accepted(reg, input)
  {
    var u := Upper(input);
    var code := CountryCode(u);
    if |u| >= 4 && code in reg && ParseStructure(reg[code].structure).Success? {
      MatchesIffPositional(u[4..], ParseStructure(reg[code].structure).value);
      Iso7064Mod97_10Correct(u);
    }
  }

  /** An input whose first two characters name no specification is never
      valid (validate.cpp:106, 113-115), and never throws. */
  lemma UnknownCodeRejected(reg: Registry, input: string)
    requires CountryCode(Upper(input)) !in reg
    ensures IsValidAsWritten(reg, input) == Success(false)
  {
  }

  /** Inputs that agree up to the case of ASCII letters get the same verdict,
      because the input is upper-cased first (validate.cpp:101). */
  lemma CaseInsensitive(reg: Registry, s: string, t: string)
    requires |s| == |t| && forall i :: 0 <= i < |s| ==> ToUpper(s[i]) == ToUpper(t[i])
    ensures IsValidAsWritten(reg, s) == IsValidAsWritten(reg, t)
    ensures IsValid(reg, s) == IsValid(reg, t)
  {
    assert Upper(s) == Upper(t);
  }

  /** In particular an input and its upper-case form get the same verdict. */
  lemma UpperSameVerdict(reg: Registry, s: string)
    ensures IsValidAsWritten(reg, Upper(s)) == IsValidAsWritten(reg, s)
  {
    UpperIdempotent(s);
  }

  /** Every BBAN character a structure of A, F and U blocks admits is a digit
      or an upper-case letter. */
  lemma AfuMatchAlphanumeric(bban: string, blocks: seq<Block>)
    requires forall k :: 0 <= k < |blocks| ==> blocks[k].selector in {'A', 'F', 'U'}
    requires Matches(bban, blocks)
    ensures forall i :: 0 <= i < |bban| ==> IsDigit(bban[i]) || IsUpper(bban[i])
  {
    MatchesIffPositional(bban, blocks);
    forall i | 0 <= i < |bban|
      ensures IsDigit(bban[i]) || IsUpper(bban[i])
    {
      SelectorAtIsBlock(blocks, i);
      SelectorClasses(SelectorAt(blocks, i), bban[i]);
    }
  }

  /** An input with an upper-case country code and a BBAN of digits and
      upper-case letters expands to at least as many digits as it has
      characters. */
  lemma RotatedLength(u: string)
    requires |u| >= 4 && IsUpper(u[0]) && IsUpper(u[1])
    requires forall i :: 0 <= i < |u[4..]| ==> IsDigit(u[4..][i]) || IsUpper(u[4..][i])
    ensures |Expand(Rotate(u))| >= |u|
  {
    ExpandLength(u[4..]);
    assert u[..4] == u[..2] + u[2..4];
    ExpandLength(u[..2]);
    ExpandConcat(u[..2], u[2..4]);
    ExpandConcat(u[4..], u[..4]);
  }

  /** On a registry of well-formed specifications filed under their own
      codes, the as-written `isValid` throws only for a short input with a
      known code: every structure parses, and an input that passes the
      length, code and structure checks expands to at least nine digits. */
  lemma WellFormedThrowsOnlyShort(reg: Registry, input: string)
    requires WellFormedRegistry(reg)
    ensures IsValidAsWritten(reg, input).Failure? <==> CountryCode(Upper(input)) in reg && |input| < 4
  {
    var u := Upper(input);
    var code := CountryCode(u);
    if code in reg && |u| >= 4 && reg[code].length == |u| {
      var spec := reg[code];
      var blocks := ParseStructure(spec.structure).value;
      if Matches(u[4..], blocks) {
        AfuMatchAlphanumeric(u[4..], blocks);
        RotatedLength(u);
        Iso7064Mod97_10Correct(u);
      }
    }
  }

  /** A fresh `Validate` throws only for a short input with a known code. */
  lemma SeedThrowsOnlyShort(reg: Registry, input: string)
    requires reg == SeedRegistry()
    ensures IsValidAsWritten(reg, input).Failure? <==> CountryCode(Upper(input)) in reg && |input| < 4
  {
    SeedRegistryWellFormed();
    WellFormedThrowsOnlyShort(reg, input);
  }
}

=== FILE: wrappers.dfy ===
/** Failure-carrying results shared by the other modules. */
module Wrappers {

  /** Either a value or the error that prevented computing it. */
  datatype Result<+T, +E> = Success(value: T) | Failure(error: E)

  /** The C++ standard-library exceptions the model distinguishes:
      `std::out_of_range` from `substr` with a start past the end,
      `std::invalid_argument` from `stoi`/`stol` on text without digits. A
      malformed structure can also make the regex constructor throw
      `std::regex_error`; the model reports that case as `InvalidArgument`. */
  datatype StdException = OutOfRange | InvalidArgument
}
